=== FILE: README.md ===
# Cloud Storage `File` and `Notification`: a Dafny model

This project models the request-shaping and decision logic of the Node.js
Google Cloud Storage client's `File` and `Notification` classes. Each
operation becomes a pure function over immutable datatypes, and the
properties the client promises are proved about it.

- `File`:
  - the constructor;
  - the billing-project hook of `request`;
  - `copy` with its rewrite-token loop;
  - `move` and `setStorageClass`;
  - `makePrivate`;
  - the option, range, technique and integrity decisions of
    `createReadStream` and `createWriteStream`;
  - the query of `startSimpleUpload_`;
  - the condition list of `getSignedPolicy`;
  - the string to sign and the query of `getSignedUrl`.
- `Notification`: `get` with `autoCreate`, `getMetadata` and `delete`.

Servers, clocks, signers, hashing, URL encoding and the MIME lookup do not
appear as code. They enter as parameters:

- a scripted sequence of replies, one per request;
- `now` in milliseconds;
- a signer `sign`;
- the result of `getCredentials`;
- a hash test `test(kind, hash)`;
- an encoder `encode` standing for `encodeURIComponent`.

JavaScript values are `Js.Value`. Plain objects are `Js.Obj`, an ordered
list of key/value pairs, so key order (which the query string and the signed
headers depend on) is part of the model.

| file | module | what |
|---|---|---|
| js.dfy | `Js` | values, truthiness, objects with `Get`/`Put`/`Remove`/`extend` |
| text.dfy | `Text` | ASCII case mapping, `split('\n')`/`join('\n')` |
| decimal.dfy | `Decimal` | decimal text of integers and a parser for it |
| names.dfy | `Names` | leading-slash stripping, storage-class names, the gs:// pattern |
| file_object.dfy | `FileObject` | `File`, its constructor, `request`, `makePrivate` |
| integrity.dfy | `Integrity` | the `validation` option and the checksum verdict |
| read_stream.dfy | `ReadStream` | `createReadStream` |
| write_stream.dfy | `WriteStream` | `createWriteStream`, `startSimpleUpload_` |
| copy.dfy | `Copy` | `copy`, `move`, `setStorageClass` |
| signed_policy.dfy | `SignedPolicy` | `getSignedPolicy` |
| signed_url.dfy | `SignedUrl` | `getSignedUrl` |
| notification.dfy | `Notifications` | `Notification#get`, `getMetadata`, `delete` |

## Model

| member | source | states |
|---|---|---|
| Names.StripLeadingSlashes | build/src/file.js:105 | the name keeps the suffix after its run of leading slashes: what is dropped is all slashes, and what remains does not start with one |
| Names.StripIdempotent | build/src/file.js:105 | stripping an already stripped name changes nothing |
| Names.StripUnchangedIff | build/src/file.js:105 | a name is kept as given exactly when it is empty or does not start with `/` |
| FileObject.ParseGeneration | build/src/file.js:118-131 | a numeric generation is kept, a string one goes through `Number`, and `null`/`undefined` leave the file unversioned |
| FileObject.NewFile | build/src/file.js:104-140 | the file holds the stripped name, the parsed generation, the options' KMS and encryption keys, and a truthy `userProject` option or else the bucket's billing project |
| FileObject.WithUserProject | build/src/file.js:1356-1361 | the file's billing project is added exactly when it is truthy and the query has no truthy `userProject`; otherwise the query is unchanged |
| FileObject.WithUserProjectOther | build/src/file.js:1356-1361 | the hook changes no query parameter other than `userProject` |
| FileObject.MakePrivate | build/src/file.js:1148-1165 | the metadata write clears `acl`; its query has `private` when `strict` is truthy and `projectPrivate` otherwise, the option's billing project or else the file's, and the file's generation |
| Names.NormalizedShape | build/src/file.js:1578-1582 | a normalised storage-class name contains no lower-case letter and no dash |
| Names.NormalizeIdempotent | build/src/file.js:1578-1582 | normalising a normalised storage-class name changes nothing |
| Names.ParseGsUrlSound | build/src/file.js:77 | whatever the gs:// parser returns satisfies the pattern, with bucket and name as its two groups |
| Names.ParseGsUrlComplete | build/src/file.js:77 | every string matching the pattern is parsed, into exactly its two groups |
| Copy.ResolveDestination | build/src/file.js:143-180 | a gs:// URL names both bucket and object, any other non-empty string is an object in the source's bucket, a bucket keeps the source's name, a file is used as is, and anything else (an empty string included) is an error |
| Copy.GsUrlDestination | build/src/file.js:158-161 | a string matching the gs:// pattern copies into the bucket and object of its two groups |
| Copy.PlainNameDestination | build/src/file.js:162-165 | a non-empty string that matches no gs:// URL names an object in the source's bucket |
| Copy.DestinationKmsKey | build/src/file.js:200-209 | a destination with its own encryption key gets no KMS key; otherwise the `destinationKmsKeyName` option wins over the destination file's KMS key |
| Copy.RewriteBody | build/src/file.js:184-206 | the JSON body is the options with a defined `userProject` taken out, and `destinationKmsKeyName` taken out exactly when the destination has no encryption key and the option is defined; otherwise both are sent as given, as is every other option |
| Copy.CopiedOptionsGet | build/src/file.js:154 | the copy's private copy of the options reads like the caller's at every key |
| Copy.PlanCopy | build/src/file.js:141-222 | one copy call throws exactly when the destination cannot be resolved; otherwise it posts to the destination bucket and object with the source generation, token and KMS key in the query; the billing project is the option when truthy, else the file's truthy project, else the option as given; the remaining options form the body |
| Copy.ContinuationFields | build/src/file.js:228-237 | the follow-up options hold the new token, plus the billing project and the destination KMS key exactly when the previous query had them truthy |
| Copy.NextPlan | build/src/file.js:228-238 | the follow-up call targets the same file and sends the new token, a truthy billing project of the previous call, and its truthy destination KMS key when the target has no encryption key |
| Copy.ContinuationStep | build/src/file.js:228-238 | re-invoking `copy` on the produced file never throws and sends the token and the carried settings |
| Copy.CopyLoopFrom | build/src/file.js:223-242 | each request but possibly the last consumes exactly one reply, the loop makes at most one request more than it has replies, and it starts with the first call's request |
| Copy.CopyLoop | build/src/file.js:141-243 | a copy whose destination cannot be resolved throws before any request |
| Copy.CopyEndsAtFirstStop | build/src/file.js:223-242 | the copy makes one request per reply up to the first reply that carries no rewrite token, and ends there: with that reply's error status when it is an error, else with the destination file; it is still waiting when the replies run out first |
| Copy.TokensCarriedForward | build/src/file.js:228-238 | each request after the first answers the reply before it, which asked for it, and carries that reply's rewrite token |
| Copy.SettingsCarriedForward | build/src/file.js:232-237 | a truthy billing project of the first call is on every request; so is a truthy destination KMS key when the destination has no encryption key |
| Copy.FirstCallKmsKey | build/src/file.js:200-209 | a first call with a truthy destination KMS key always targets a file without its own encryption key |
| Copy.Move | build/src/file.js:1340-1355 | the copy's requests are sent first; the source is deleted exactly when the copy succeeded, and the callback then gets the destination file with the delete's error; a failed copy is passed on with no delete |
| Copy.StorageClassPlan | build/src/file.js:1571-1583 | the first call rewrites the file onto itself, with the normalised storage class in the body |
| Copy.LoopKeepsSelf | build/src/file.js:199-214 | when a copy's destination is the source object itself, every call of the rewrite loop leaves that object unchanged apart from the KMS key it may set, since the encryption key taken from the destination is its own |
| Copy.SetStorageClass | build/src/file.js:1571-1591 | the change is a copy of the file onto itself, with the normalised storage class in its body, that ends at the first token-less or failed reply; it succeeds exactly when that reply is token-less, and the file it leaves behind differs from the original at most in the KMS key the calls set on it |
| Integrity.ValidationChecks | build/src/file.js:338-350 | CRC32C is on by default and off for `false`; a string (case-insensitively) selects CRC32C exactly when it is `crc32c` and MD5 exactly when it is `md5`; the two are never both on |
| Integrity.UnknownValidationStringDisablesAll | build/src/file.js:341-346 | a `validation` string naming neither checksum turns both checks off |
| Integrity.MismatchMeaning | build/src/file.js:461-470 | a transfer fails its check exactly when a requested checksum is missing from the server's metadata or fails the test |
| ReadStream.PlanRead | build/src/file.js:332-360 | a range with a string or `true` validation throws; any other range runs no check; without a range the checks come from `validation` |
| ReadStream.ReadQuery | build/src/file.js:362-370 | the media GET asks for `alt=media`, the file's non-zero generation and a truthy billing project |
| ReadStream.ReadHeaders | build/src/file.js:371-378 | gzip is always accepted, and a `Range` header is sent exactly for a range request |
| ReadStream.RangeHeaderMeaning | build/src/file.js:374-378 | read as a byte-range-spec of section 2.1 of RFC 7233, the `Range` header asks for the suffix of length `-end` when `end` is negative, and otherwise for `start` (or 0) to `end` (or the end of the object) |
| ReadStream.DownloadVerdict | build/src/file.js:440-490 | a ranged download ends at once; otherwise a failed metadata refresh destroys the stream with its status, an MD5 check the server cannot answer is `MD5_NOT_AVAILABLE`, any other mismatch is `CONTENT_DOWNLOAD_MISMATCH`, and the stream ends normally exactly when the requested check passes |
| ReadStream.DownloadDecisions | build/src/file.js:440-490 | a ranged download never reports an integrity error; once the metadata refresh succeeds, a default download without a server CRC32C is `CONTENT_DOWNLOAD_MISMATCH` and a download with `validation: false` ends normally |
| WriteStream.NormalizeWriteOptions | build/src/file.js:665-689 | the metadata gets the `contentType` option (the MIME guess for `auto`) and `contentEncoding: gzip` when gzip is on (decided by compressibility for `auto`); nothing else in the metadata changes; the checks come from `validation` |
| WriteStream.WithContentType | build/src/file.js:667-672 | a truthy content type is set, `auto` is replaced by the MIME guess, a falsy one leaves the metadata alone, and no other metadata key changes |
| WriteStream.ChooseTechnique | build/src/file.js:703-727 | resumable upload happens exactly when it is not refused and the config directory is writable; demanding it of an unwritable directory is an error; everything else is a simple upload |
| WriteStream.SimpleUploadAcl | build/src/file.js:1679-1687 | an explicit `predefinedAcl` wins over `private`, which wins over `public` |
| WriteStream.SimpleUploadQuery | build/src/file.js:1664-1687 | the upload query holds the name, the generation as `ifGenerationMatch`, a defined KMS key, a truthy billing project and the chosen predefined ACL |
| WriteStream.QueryKey | build/src/file.js:1664-1687 | each key of the simple-upload query holds exactly the value its source decides, and no other key is present |
| WriteStream.SimpleUploadRequest | build/src/file.js:1660-1690 | the upload posts to the bucket's upload endpoint, with the file's billing project added when the options give none |
| WriteStream.UploadFailureCode | build/src/file.js:756-784 | the error is `FILE_NO_UPLOAD_DELETE` exactly when the delete failed, `MD5_NOT_AVAILABLE` exactly when it did not and an MD5 check had no server MD5, and `FILE_NO_UPLOAD` exactly in the remaining case |
| WriteStream.UploadVerdict | build/src/file.js:740-793 | the upload finishes exactly when its check does not fail; otherwise the object is deleted and the stream fails with the chosen code |
| WriteStream.UploadWithoutServerMd5 | build/src/file.js:770-776 | an upload that asked for MD5 against an object without one fails with `MD5_NOT_AVAILABLE` unless the delete failed |
| WriteStream.UploadAgreesWithDownload | build/src/file.js:745-755 | with checks from the `validation` option, an upload finishes exactly when the full download of the same data ends normally, and reports `MD5_NOT_AVAILABLE` exactly when that download does and the delete succeeded |
| Text.LowerEqualsIffSameIgnoringCase | build/src/file.js:341-346 | lower-casing a string gives a lower-case literal exactly when the two are equal ignoring case |
| Text.SplitJoinLines | build/src/file.js:1057-1063 | splitting newline-joined, newline-free lines gives the lines back |
| Decimal.IntToStringRoundTrip | build/src/file.js:1057-1063 | the decimal text of any integer reads back as that integer |
| Decimal.IntToStringInjective | build/src/file.js:1057-1063 | different integers have different decimal texts |
| SignedPolicy.PairConditions | build/src/file.js:968-989 | a pair list becomes one condition per pair, in order, exactly when every entry is an array of two elements |
| SignedPolicy.PairConditionsRank | build/src/file.js:968-989 | the conditions of a pair list all belong to their kind's block, so they keep the list sorted |
| SignedPolicy.FieldConditions | build/src/file.js:990-1004 | the ACL, redirect and status conditions appear exactly for truthy options, nothing else appears, and they come in that order |
| SignedPolicy.RangeCondition | build/src/file.js:1005-1012 | a falsy range adds nothing, numeric bounds add one range condition, and any other bound throws |
| SignedPolicy.PolicyConditions | build/src/file.js:957-1012 | bad `equals` pairs throw first, then bad `startsWith` pairs, then a bad range; otherwise the list is the key, the bucket, the `equals` pairs, the `startsWith` pairs, and then exactly the ACL, redirect and status conditions followed by the length range when one is given |
| SignedPolicy.SinglePairWrapped | build/src/file.js:968-971 | a single `[field, value]` pair is wrapped into a list and becomes the first condition after key and bucket |
| SignedPolicy.EmptyPairListRejected | build/src/file.js:968-975 | an empty `equals` array is wrapped into one empty pair and rejected |
| SignedPolicy.GetSignedPolicy | build/src/file.js:953-1029 | an expiry before `now` throws first, then the condition errors; otherwise the serialised policy and its base64 form are signed, and a signer error reaches the callback |
| SignedUrl.Verb | build/src/file.js:1037-1042 | read, write, delete and resumable map to GET, PUT, DELETE and POST; any other action string gives the empty verb |
| SignedUrl.VerbDeterminesAction | build/src/file.js:1037-1042 | no two actions share a verb |
| SignedUrl.ExpirySeconds | build/src/file.js:1035 | the expiry in seconds lies within half a second of the expiry in milliseconds |
| SignedUrl.ExpirySecondsMonotone | build/src/file.js:1035 | a later expiry never signs an earlier second |
| SignedUrl.ExtensionHeaders | build/src/file.js:1046-1050 | a resumable upload signs `x-goog-resumable: start`; other verbs sign the caller's headers as given |
| SignedUrl.ResumableHeaderPlacement | build/src/file.js:1046-1050 | the resumable header comes after the caller's headers, or keeps its place when the caller set it, and no other header changes |
| SignedUrl.StringToSignLines | build/src/file.js:1057-1063 | the signed text splits into verb, MD5, content type, expiry seconds, one `name:value` line per header and the resource |
| SignedUrl.ResponseQuery | build/src/file.js:1073-1086 | the content type and disposition are sent when they are strings (`responseDisposition` over the `promptSaveAs` attachment), and the generation when it is non-zero |
| SignedUrl.UrlQueryKeys | build/src/file.js:1067-1086 | the URL query starts with the credentials' e-mail, the expiry in seconds and the signature, followed by the response parameters |
| SignedUrl.GetSignedUrlAsWritten | build/src/file.js:1030-1100 | an expiry before `now` throws, and nothing else does |
| SignedUrl.CredentialFailureIsSilent | build/src/file.js:1064-1066 | as written, a credential failure after a successful signature never calls back |
| SignedUrl.GetSignedUrl | build/src/file.js:1030-1100 | corrected: every call that does not throw answers, with the URL exactly when both signer and credential lookup succeed |
| SignedUrl.CorrectionOnlyAddsAnswers | build/src/file.js:1064-1099 | the corrected version differs from the one as written only where the latter never answers |
| Notifications.GetMetadata | build/src/notification.js:170-185 | a GET with the options as query; success stores and returns the response, an error leaves the notification unchanged |
| Notifications.Delete | build/src/notification.js:126-135 | a DELETE with the options as query, reporting an error exactly when the server fails |
| Notifications.CreateFor | build/src/notification.js:156-161 | `create` receives the options only when some remain after `autoCreate` is taken out |
| Notifications.GetNotification | build/src/notification.js:136-169 | the first request reads the metadata without `autoCreate`; a found notification is this one with the metadata just read; an error or a creation answers with the reply that ended the call |
| Notifications.GetQueriesOmitAutoCreate | build/src/notification.js:140-145 | every call `get` makes, the retry after a 409 included, uses the options without `autoCreate` |
| Notifications.GetCreatesAtMostOnce | build/src/notification.js:140-163 | `get` calls `create` at most once, and only when `autoCreate` is truthy and the first read answered 404 |
| Notifications.FirstReadDecides | build/src/notification.js:153-167 | unless the first read answers 404 with a truthy `autoCreate`, `get` is one read: success yields this notification with the metadata, and any other error (a 404 without `autoCreate` included) is passed on |
| Notifications.ConflictRetries | build/src/notification.js:142-147 | a 409 from `create` leads to a fresh `get` with the stripped options, whose outcome is the call's |
| Notifications.CreateOutcomes | build/src/notification.js:142-151 | a successful `create` answers with its response, and a create error other than 409 is passed on with no further call |

## Left out

- Streams:
  - the piping, gzip, cork/uncork and the event timing of `createReadStream` and `createWriteStream` are not modelled;
  - only the decision each path reaches is modelled.
- Checksums:
  - CRC32C and MD5 are not computed, and the first four characters of the server's CRC32C are not dropped;
  - the hash test is a parameter.
- `setEncryptionKey`: the SHA-256 and base64 derivation of a customer key, and the interceptor list of `copy`, are left out because they are cryptography and transport. Which KMS key `copy` uses is modelled.
- Outside calls: the signer, `getCredentials`, the JSON and base64 encoding of the policy, `url.parse`/`url.format`, `Date` parsing and ISO formatting, `encodeURIComponent`, `mime.getType`, `compressible` and `fs.access` are parameters.
- Transport: the `ServiceObject` transport, retries, authentication and the promise/callback duality are left out.
- `createResumableUpload` and `startResumableUpload_` are left out; they only forward fields to the resumable-upload library.
- build/src/channel.js and the other `File` methods (`download`, `exists`, `save`, `rotateEncryptionKey`, ...) are not part of this model.
- `File#delete` appears only as the query that `move` sends; the server reply to it is an input of `Move`.
- FileObject.ParseGeneration: a generation that is neither a number nor a string is treated as absent. The source would store such a value, for example `true`, because `isNaN` accepts it.
- SignedUrl.GetSignedUrl: the expiry is an integer number of milliseconds. A date JavaScript cannot read (which the source would sign as `NaN`) is not modelled.
- Text.LowerEqualsIffSameIgnoringCase: case mapping covers ASCII letters only; `toLowerCase` also maps other scripts.
- Names.NormalizeStorageClass: upper-casing covers ASCII letters only; `toUpperCase` also maps other letters, for example `ß` to `SS`.
- Decimal.IntToStringRoundTrip: integers print in plain decimal; JavaScript switches to exponent notation from 10^21 on.
- Copy.ResolveDestination:
  - a destination counts as a bucket when its constructor is named `Bucket`, and that test is an input;
  - the object name is not URL-encoded in the rewrite path.
- The deep copy (`extend(true, ...)`) of the options is modelled as a shallow one. The options here are flat records, so nested objects never arise.
- Mutation of the caller's objects is not modelled; every operation returns new values. Three writes of the source reach objects the caller still holds:
  - `createReadStream` overwrites the caller's `options.validation` with its lower-case form (build/src/file.js:343-344);
  - `createWriteStream` writes `contentType` into the caller's own `options.metadata` object, because its `extend` is shallow (build/src/file.js:666-668);
  - notification `get` deletes `autoCreate` from the caller's options (build/src/notification.js:141).
- SignedUrl.Verb: an action that names a property inherited from `Object.prototype`, such as `toString`, is treated as unknown. The source's lookup would find that inherited function and put its text into the signed string. The typings accept only the four action names.
- Property order of `Object.keys` for integer-like keys (which JavaScript lists first) is not modelled. Keys keep their insertion order.
- ReadStream.RangeHeader: a tail request is recognised only for a numeric `end`. The source compares `end < 0` after JavaScript's conversion (build/src/file.js:334), so with a numeric `start` an `end` such as `"-5"` or `[-1]` makes it a tail request. The source then prints the non-numeric `end` as nothing and sends `bytes=` (build/src/file.js:374-377). The typings declare `end` a number.
- Js.Value: numbers are integers only. A fractional number cannot be expressed, for example a `start` of 0.5, which `createReadStream` would print into the header as `bytes=0.5-` (build/src/file.js:374-378).
- Copy.CopyLoop: a destination that is the same `File` object as the source is treated like a distinct `File` with equal fields, so the file it calls back with does not show the KMS key the call sets on the source. `Copy.SetStorageClass`, the one such call in the modelled code, accounts for it.
- Copy.SetStorageClass: the callback of `setStorageClass` receives only the API response and copies the new file's metadata onto the file (build/src/file.js:1584-1589). Object metadata is not part of the `File` model, so the outcome carries the file instead.

## Findings

| source | as written | input that shows it | evidently intended | confidence | as-written member | corrected member |
|---|---|---|---|---|---|---|
| build/src/file.js:1064-1099 | the `getCredentials()` promise is started inside the `sign` continuation but not returned, so its rejection never reaches the `.catch` that reports `SigningError` | `sign` resolves, `getCredentials` rejects: the callback is never called | a credential failure is reported to the callback like a signing failure | medium, not executed | SignedUrl.GetSignedUrlAsWritten | SignedUrl.GetSignedUrl |

=== FILE: copy.dfy ===
/** `File#copy` and the operations built on it (`move`, `setStorageClass`):
    where the copy goes, the rewrite request it sends, which KMS key or
    encryption key the destination gets, and the rewrite-token loop that
    re-issues the copy until the server reports completion. */
module Copy {
  import opened Js
  import opened Names
  import opened FileObject

  /** The `destination` argument: a string (a gs:// URL or a bare object
      name), a `Bucket`, a `File`, a falsy value, or an object of any other
      kind. */
  datatype Destination =
    | ToPath(path: string)
    | ToBucket(bucket: Bucket)
    | ToFile(file: File)
    | FalsyDestination
    | OtherDestination

  /** The error thrown when the destination names no object. */
  datatype CopyError = NoDestinationName

  /** The bucket and object name the copy writes, and the destination `File`
      when the caller passed one. */
  datatype Target = Target(bucket: Bucket, name: string, file: Option<File>)

  /** `storage.bucket(name)`: a bucket handle without a billing project. */
  function NamedBucket(name: string): Bucket {
    Bucket(name, Undefined)
  }

  /** Resolves the destination. A gs:// URL names bucket and object; any
      other non-empty string names an object in the source's bucket; a
      bucket receives an object of the source's name; a file is used as it
      is; an empty string, a falsy value or any other object is refused. */
  function ResolveDestination(src: File, dest: Destination): (r: Result<Target, CopyError>)
    ensures r.Err? <==> dest.FalsyDestination? || dest.OtherDestination? || dest == ToPath("")
    ensures dest.ToPath? && dest.path != "" && ParseGsUrl(dest.path).Some? ==>
      r == Ok(Target(NamedBucket(ParseGsUrl(dest.path).value.0), ParseGsUrl(dest.path).value.1, None))
    ensures dest.ToPath? && dest.path != "" && ParseGsUrl(dest.path).None? ==>
      r == Ok(Target(src.bucket, dest.path, None))
    ensures dest.ToBucket? ==> r == Ok(Target(dest.bucket, src.name, None))
    ensures dest.ToFile? ==> r == Ok(Target(dest.file.bucket, dest.file.name, Some(dest.file)))
  {
    match dest
    case ToPath(p) =>
      if p == "" then Err(NoDestinationName)
      else if ParseGsUrl(p).Some? then
        Ok(Target(NamedBucket(ParseGsUrl(p).value.0), ParseGsUrl(p).value.1, None))
      else Ok(Target(src.bucket, p, None))
    case ToBucket(b) => Ok(Target(b, src.name, None))
    case ToFile(f) => Ok(Target(f.bucket, f.name, Some(f)))
    case FalsyDestination => Err(NoDestinationName)
    case OtherDestination => Err(NoDestinationName)
  }

  /** A string that matches the gs:// pattern copies into the bucket and
      object its two capture groups name. */
  lemma GsUrlDestination(src: File, path: string, bucket: string, name: string)
    requires GsUrlMatch(path, bucket, name)
    ensures ResolveDestination(src, ToPath(path)) == Ok(Target(NamedBucket(bucket), name, None))
  {
    ParseGsUrlComplete(path, bucket, name);
  }

  /** A non-empty string that matches no gs:// URL is an object name in the
      source's own bucket. */
  lemma PlainNameDestination(src: File, path: string)
    requires path != "" && forall b, n :: !GsUrlMatch(path, b, n)
    ensures ResolveDestination(src, ToPath(path)) == Ok(Target(src.bucket, path, None))
  {
    ParseGsUrlSound(path);
  }

  /** The file the copy produces: the destination `File` itself, or a new
      file of the target bucket (`bucket.file(name)`). */
  function TargetFile(t: Target): File {
    if t.file.Some? then t.file.value else FileIn(t.bucket, t.name)
  }

  /** The query of a rewrite request, one field per query parameter it may
      carry (`Undefined` when it is absent). */
  datatype RewriteQuery = RewriteQuery(
    sourceGeneration: Option<int>,
    rewriteToken: Value,
    userProject: Value,
    destinationKmsKeyName: Value)

  /** `POST /rewriteTo/b/<destBucket>/o/<destName>` with its query, its JSON
      body (the remaining options) and, when the source is encrypted with a
      customer key, the `x-goog-copy-source-encryption-*` headers built
      from that key. */
  datatype RewriteRequest = RewriteRequest(
    destBucket: string,
    destName: string,
    query: RewriteQuery,
    body: Params,
    copySourceKey: Option<EncryptionKey>)

  /** One copy call: the request sent, the file it produces, and the source
      file as the call leaves it (its KMS key or encryption key may change). */
  datatype CopyPlan = CopyPlan(request: RewriteRequest, target: File, source: File)

  /** Which KMS key the destination is written with: none when the
      destination file has its own encryption key (the source then takes on
      that key), else the `destinationKmsKeyName` option, else the
      destination file's KMS key. */
  function DestinationKmsKey(newFile: File, options: Params): (k: Value)
    ensures newFile.encryption.Some? ==> k == Undefined
    ensures newFile.encryption.None? && Defined(Get(options, "destinationKmsKeyName")) ==>
      k == Get(options, "destinationKmsKeyName")
    ensures newFile.encryption.None? && !Defined(Get(options, "destinationKmsKeyName")) ==>
      k == newFile.kmsKeyName
  {
    if newFile.encryption.Some? then Undefined
    else if Defined(Get(options, "destinationKmsKeyName")) then Get(options, "destinationKmsKeyName")
    else newFile.kmsKeyName
  }

  /** The options left for the JSON body: `userProject` moves to the query
      when defined, and so does `destinationKmsKeyName` when it is the key
      used. */
  function RewriteBody(newFile: File, options: Params): (b: Params)
    ensures Defined(Get(options, "userProject")) ==> !HasKey(b, "userProject")
    ensures !Defined(Get(options, "userProject")) ==> Find(b, "userProject") == Find(options, "userProject")
    ensures newFile.encryption.None? && Defined(Get(options, "destinationKmsKeyName")) ==>
      !HasKey(b, "destinationKmsKeyName")
    ensures !(newFile.encryption.None? && Defined(Get(options, "destinationKmsKeyName"))) ==>
      Find(b, "destinationKmsKeyName") == Find(options, "destinationKmsKeyName")
    ensures forall k :: k != "userProject" && k != "destinationKmsKeyName" ==> Find(b, k) == Find(options, k)
  {
    var b1 := if Defined(Get(options, "userProject")) then Remove(options, "userProject") else options;
    var b2 := if newFile.encryption.None? && Defined(Get(options, "destinationKmsKeyName"))
      then Remove(b1, "destinationKmsKeyName")
      else b1;
    RemoveOther(b1, "destinationKmsKeyName", "userProject");
    RemoveOther(options, "userProject", "destinationKmsKeyName");
    forall k | k != "userProject" && k != "destinationKmsKeyName"
      ensures Find(b2, k) == Find(options, k)
    {
      RemoveOther(options, "userProject", k);
      RemoveOther(b1, "destinationKmsKeyName", k);
    }
    b2
  }

  /** `extend(true, {}, options)`: the copy's private copy of the options,
      which drops undefined fields and reads like the original. */
  function CopiedOptions(options: Params): (c: Params)
    ensures Get(c, "token") == Get(options, "token")
    ensures Get(c, "userProject") == Get(options, "userProject")
    ensures Get(c, "destinationKmsKeyName") == Get(options, "destinationKmsKeyName")
  {
    ExtendGet([], options, "token");
    ExtendGet([], options, "userProject");
    ExtendGet([], options, "destinationKmsKeyName");
    Extend([], options)
  }

  /** The private copy reads like the original at every key. */
  lemma CopiedOptionsGet(options: Params, k: string)
    ensures Get(CopiedOptions(options), k) == Get(options, k)
  {
    ExtendGet([], options, k);
  }

  /** One call of `File#copy` with the `File#request` hook: resolves the
      destination and builds the rewrite request. */
  function PlanCopy(src: File, dest: Destination, options: Params): (r: Result<CopyPlan, CopyError>)
    ensures r.Err? <==> ResolveDestination(src, dest).Err?
    ensures r.Ok? ==>
      var t := ResolveDestination(src, dest).value;
      var p := r.value;
      && p.target == TargetFile(t)
      && p.request.destBucket == t.bucket.name && p.request.destName == p.target.name
      && p.request.query.sourceGeneration == src.generation
      && p.request.query.rewriteToken == Get(options, "token")
      && p.request.query.destinationKmsKeyName == DestinationKmsKey(p.target, options)
      && (Truthy(Get(options, "userProject")) ==> p.request.query.userProject == Get(options, "userProject"))
      && (!Truthy(Get(options, "userProject")) && Truthy(src.userProject) ==> p.request.query.userProject == src.userProject)
      && (!Truthy(Get(options, "userProject")) && !Truthy(src.userProject) ==> p.request.query.userProject == Get(options, "userProject"))
      && p.request.body == RewriteBody(p.target, CopiedOptions(options))
      && p.request.copySourceKey == src.encryption
      && p.source.bucket == src.bucket && p.source.name == src.name
      && p.source.generation == src.generation && p.source.userProject == src.userProject
      && p.source.encryption == (if p.target.encryption.Some? then p.target.encryption else src.encryption)
      && p.source.kmsKeyName ==
           (if Truthy(p.request.query.destinationKmsKeyName) then p.request.query.destinationKmsKeyName else src.kmsKeyName)
  {
    match ResolveDestination(src, dest)
    case Err(e) => Err(e)
    case Ok(t) =>
      var copied := CopiedOptions(options);
      var newFile := TargetFile(t);
      var kms := DestinationKmsKey(newFile, copied);
      var q := RewriteQuery(src.generation, Get(copied, "token"), Get(copied, "userProject"), kms);
      var sent := if Truthy(src.userProject) && !Truthy(q.userProject) then q.(userProject := src.userProject) else q;
      var encrypted := if newFile.encryption.Some? then src.(encryption := newFile.encryption) else src;
      var updated := if Truthy(kms) then encrypted.(kmsKeyName := kms) else encrypted;
      Ok(CopyPlan(RewriteRequest(t.bucket.name, newFile.name, sent, RewriteBody(newFile, copied), src.encryption),
                  newFile, updated))
  }

  // ---------------------------------------------------------------------
  // The rewrite-token loop
  // ---------------------------------------------------------------------

  /** The server's answer to one rewrite request: an error status, or a
      response whose `rewriteToken` says whether more calls are needed. */
  datatype CopyReply = RewriteFailed(status: int) | Rewritten(rewriteToken: Value)

  /** A reply that asks for another rewrite call. */
  predicate Continues(r: CopyReply) {
    r.Rewritten? && Truthy(r.rewriteToken)
  }

  /** What the copy callback receives: the destination file, or an error
      status; `Thrown` when the call threw before sending anything, and
      `Awaiting` when the scripted replies ran out before the callback fired. */
  datatype CopyOutcome = Copied(file: File) | CopyFailed(status: int) | Thrown(error: CopyError) | Awaiting

  datatype CopyRun = CopyRun(outcome: CopyOutcome, requests: seq<RewriteRequest>, source: File, used: nat)

  /** The options of the follow-up call: the new token, plus the billing
      project and the destination KMS key of the previous request when
      those are truthy. */
  function ContinuationOptions(token: Value, q: RewriteQuery): Params {
    [("token", token)]
    + Optional(Truthy(q.userProject), "userProject", q.userProject)
    + Optional(Truthy(q.destinationKmsKeyName), "destinationKmsKeyName", q.destinationKmsKeyName)
  }

  lemma ContinuationFields(token: Value, q: RewriteQuery)
    ensures var o := ContinuationOptions(token, q);
      && Get(o, "token") == token
      && Get(o, "userProject") == (if Truthy(q.userProject) then q.userProject else Undefined)
      && Get(o, "destinationKmsKeyName") == (if Truthy(q.destinationKmsKeyName) then q.destinationKmsKeyName else Undefined)
  {
    var a := [("token", token)];
    var b := Optional(Truthy(q.userProject), "userProject", q.userProject);
    var c := Optional(Truthy(q.destinationKmsKeyName), "destinationKmsKeyName", q.destinationKmsKeyName);
    assert ContinuationOptions(token, q) == a + b + c;
    FindAppend(a + b, c, "token");
    FindAppend(a + b, c, "userProject");
    FindAppend(a + b, c, "destinationKmsKeyName");
    FindAppend(a, b, "token");
    FindAppend(a, b, "userProject");
    FindAppend(a, b, "destinationKmsKeyName");
    FindSingleton("token", token, "token");
    FindSingleton("token", token, "userProject");
    FindSingleton("token", token, "destinationKmsKeyName");
    FindOptional(Truthy(q.userProject), "userProject", q.userProject, "userProject");
    FindOptional(Truthy(q.userProject), "userProject", q.userProject, "destinationKmsKeyName");
    FindOptional(Truthy(q.destinationKmsKeyName), "destinationKmsKeyName", q.destinationKmsKeyName, "userProject");
    FindOptional(Truthy(q.destinationKmsKeyName), "destinationKmsKeyName", q.destinationKmsKeyName, "destinationKmsKeyName");
  }

  /** The copy call issued when a reply carries a rewrite token: the same
      copy, now from the updated source to the file the previous call
      produced, with the token and the settings the previous call kept. */
  function NextPlan(p: CopyPlan, token: Value): (next: CopyPlan)
    ensures next.target == p.target
    ensures next.request.query.rewriteToken == token
    ensures Truthy(p.request.query.userProject) ==> next.request.query.userProject == p.request.query.userProject
    ensures Truthy(p.request.query.destinationKmsKeyName) && p.target.encryption.None? ==>
      next.request.query.destinationKmsKeyName == p.request.query.destinationKmsKeyName
  {
    ContinuationStep(p, token);
    PlanCopy(p.source, ToFile(p.target), ContinuationOptions(token, p.request.query)).value
  }

  /** The rewrite loop from one copy call on: an error reply ends the copy
      with that error, a reply with a rewrite token issues the next call, a
      reply without one ends the copy with the destination file. */
  function CopyLoopFrom(p: CopyPlan, replies: seq<CopyReply>): (run: CopyRun)
    ensures run.used <= |replies| && |run.requests| <= |replies| + 1
    ensures run.used <= |run.requests| <= run.used + 1
    ensures |run.requests| >= 1 && run.requests[0] == p.request
    decreases |replies|
  {
    if replies == [] then CopyRun(Awaiting, [p.request], p.source, 0)
    else
      match replies[0]
      case RewriteFailed(status) => CopyRun(CopyFailed(status), [p.request], p.source, 1)
      case Rewritten(token) =>
        if Truthy(token) then
          var rest := CopyLoopFrom(NextPlan(p, token), replies[1..]);
          CopyRun(rest.outcome, [p.request] + rest.requests, rest.source, rest.used + 1)
        else CopyRun(Copied(p.target), [p.request], p.source, 1)
  }

  /** `copy` followed through its replies; a call that throws sends
      nothing. */
  function CopyLoop(src: File, dest: Destination, options: Params, replies: seq<CopyReply>): (run: CopyRun)
    ensures PlanCopy(src, dest, options).Err? ==> run.outcome.Thrown? && run.requests == []
  {
    match PlanCopy(src, dest, options)
    case Err(e) => CopyRun(Thrown(e), [], src, 0)
    case Ok(p) => CopyLoopFrom(p, replies)
  }

  /** The index of the first reply that does not ask for another call, or
      the number of replies when they all do. */
  function FirstStop(replies: seq<CopyReply>): (k: nat)
    ensures k <= |replies|
    ensures forall i :: 0 <= i < k ==> Continues(replies[i])
    ensures k < |replies| ==> !Continues(replies[k])
  {
    if replies == [] || !Continues(replies[0]) then 0 else 1 + FirstStop(replies[1..])
  }

  /** A follow-up call targets the file the first call produced, never
      throws, sends the new token, and keeps a truthy billing project and a
      truthy destination KMS key of the call before it. */
  lemma ContinuationStep(p: CopyPlan, token: Value)
    ensures var q := p.request.query;
      var next := PlanCopy(p.source, ToFile(p.target), ContinuationOptions(token, q));
      && next.Ok? && next.value.target == p.target
      && next.value.request.query.rewriteToken == token
      && (Truthy(q.userProject) ==> next.value.request.query.userProject == q.userProject)
      && (Truthy(q.destinationKmsKeyName) && p.target.encryption.None? ==>
            next.value.request.query.destinationKmsKeyName == q.destinationKmsKeyName)
  {
    ContinuationFields(token, p.request.query);
  }

  /** The copy ends exactly at the first reply without a rewrite token: one
      request per reply up to and including it, ending with the destination
      file, or with the error of an error reply; when the replies run out
      first, the last request is still unanswered. */
  lemma {:induction false} CopyEndsAtFirstStop(p: CopyPlan, replies: seq<CopyReply>)
    ensures var run := CopyLoopFrom(p, replies);
      var k := FirstStop(replies);
      && |run.requests| == k + 1
      && run.used == (if k < |replies| then k + 1 else k)
      && run.outcome == (if k == |replies| then Awaiting
                         else if replies[k].RewriteFailed? then CopyFailed(replies[k].status)
                         else Copied(p.target))
    decreases |replies|
  {
    if replies != [] && Continues(replies[0]) {
      CopyEndsAtFirstStop(NextPlan(p, replies[0].rewriteToken), replies[1..]);
    }
  }

  /** Each request after the first answers the reply before it: that reply
      asked for another call, and the request carries its rewrite token. */
  predicate TokensFollowReplies(requests: seq<RewriteRequest>, replies: seq<CopyReply>) {
    |requests| <= 1 ||
      (&& |replies| >= 1
       && Continues(replies[0])
       && requests[1].query.rewriteToken == replies[0].rewriteToken
       && TokensFollowReplies(requests[1..], replies[1..]))
  }

  /** One step of the loop: a reply that asks for another call puts the
      current request in front of the rest of the run. */
  lemma LoopStep(p: CopyPlan, replies: seq<CopyReply>)
    requires replies != [] && Continues(replies[0])
    ensures var next := NextPlan(p, replies[0].rewriteToken);
      && CopyLoopFrom(p, replies).requests == [p.request] + CopyLoopFrom(next, replies[1..]).requests
      && CopyLoopFrom(next, replies[1..]).requests[0].query.rewriteToken == replies[0].rewriteToken
  {
  }

  lemma TokensPrepend(request: RewriteRequest, rest: seq<RewriteRequest>, replies: seq<CopyReply>)
    requires replies != [] && Continues(replies[0])
    requires |rest| >= 1 && rest[0].query.rewriteToken == replies[0].rewriteToken
    requires TokensFollowReplies(rest, replies[1..])
    ensures TokensFollowReplies([request] + rest, replies)
  {
    assert ([request] + rest)[1..] == rest;
  }

  /** Every follow-up request carries the rewrite token of the reply before
      it, and that reply asked for the follow-up. */
  lemma {:induction false} TokensCarriedForward(p: CopyPlan, replies: seq<CopyReply>)
    ensures TokensFollowReplies(CopyLoopFrom(p, replies).requests, replies)
    decreases |replies|
  {
    if replies != [] && Continues(replies[0]) {
      var next := NextPlan(p, replies[0].rewriteToken);
      TokensCarriedForward(next, replies[1..]);
      LoopStep(p, replies);
      TokensPrepend(p.request, CopyLoopFrom(next, replies[1..]).requests, replies);
    }
  }

  /** Every request of the run carries the billing project `v`. */
  predicate AllUserProject(requests: seq<RewriteRequest>, v: Value) {
    forall i :: 0 <= i < |requests| ==> requests[i].query.userProject == v
  }

  /** Every request of the run carries the destination KMS key `v`. */
  predicate AllKmsKey(requests: seq<RewriteRequest>, v: Value) {
    forall i :: 0 <= i < |requests| ==> requests[i].query.destinationKmsKeyName == v
  }

  /** A truthy billing project, and a truthy destination KMS key of a copy
      to a file without its own encryption key, are carried by every
      follow-up request. */
  lemma {:induction false} SettingsCarriedForward(p: CopyPlan, replies: seq<CopyReply>)
    ensures Truthy(p.request.query.userProject) ==>
      AllUserProject(CopyLoopFrom(p, replies).requests, p.request.query.userProject)
    ensures Truthy(p.request.query.destinationKmsKeyName) && p.target.encryption.None? ==>
      AllKmsKey(CopyLoopFrom(p, replies).requests, p.request.query.destinationKmsKeyName)
    decreases |replies|
  {
    var run := CopyLoopFrom(p, replies);
    var first := p.request.query;
    if replies != [] && Continues(replies[0]) {
      var next := NextPlan(p, replies[0].rewriteToken);
      SettingsCarriedForward(next, replies[1..]);
      var rest := CopyLoopFrom(next, replies[1..]);
      assert run.requests == [p.request] + rest.requests;
    }
  }

  /** A copy whose destination file has no encryption key of its own never
      comes with a truthy destination KMS key otherwise: the precondition of
      the carry-forward holds for every first call. */
  lemma FirstCallKmsKey(src: File, dest: Destination, options: Params)
    requires PlanCopy(src, dest, options).Ok?
    ensures var p := PlanCopy(src, dest, options).value;
      Truthy(p.request.query.destinationKmsKeyName) ==> p.target.encryption.None?
  {
  }

  // ---------------------------------------------------------------------
  // move and setStorageClass
  // ---------------------------------------------------------------------

  /** What the move callback receives: the destination file with the
      delete's error (if any), or the copy's error. */
  datatype MoveOutcome =
    | Moved(file: File, deleteError: Option<int>)
    | NotCopied(status: int)
    | MoveThrown(error: CopyError)
    | MoveAwaiting

  datatype MoveRun = MoveRun(outcome: MoveOutcome, copyRequests: seq<RewriteRequest>, deleteQueries: seq<Params>)

  /** The query of `File#delete` with the `File#request` hook: the file's
      generation merged with the options, then the billing project. */
  function DeleteQuery(f: File, options: Params): Params {
    WithUserProject(f.userProject, Extend(RequestQuery(f), options))
  }

  /** `File#move`: copy, and only once the copy has succeeded, delete the
      source with the same options. `deleteReply` is the server's answer to
      the delete, `None` while it has not answered. */
  function Move(src: File, dest: Destination, options: Params, copyReplies: seq<CopyReply>, deleteReply: Option<Reply>)
    : (m: MoveRun)
    ensures var copy := CopyLoop(src, dest, options, copyReplies);
      && m.copyRequests == copy.requests
      && (|m.deleteQueries| == 1 <==> copy.outcome.Copied?)
      && (m.deleteQueries == [] <==> !copy.outcome.Copied?)
      && (copy.outcome.Copied? ==> m.deleteQueries == [DeleteQuery(copy.source, options)])
      && (copy.outcome.CopyFailed? ==> m.outcome == NotCopied(copy.outcome.status))
      && (copy.outcome.Copied? && deleteReply.Some? ==>
            m.outcome == Moved(copy.outcome.file, if deleteReply.value.Failure? then Some(deleteReply.value.code) else None))
  {
    var copy := CopyLoop(src, dest, options, copyReplies);
    match copy.outcome
    case Thrown(e) => MoveRun(MoveThrown(e), copy.requests, [])
    case Awaiting => MoveRun(MoveAwaiting, copy.requests, [])
    case CopyFailed(status) => MoveRun(NotCopied(status), copy.requests, [])
    case Copied(file) =>
      var outcome := match deleteReply
        case None => MoveAwaiting
        case Some(Success(_)) => Moved(file, None)
        case Some(Failure(code)) => Moved(file, Some(code));
      MoveRun(outcome, copy.requests, [DeleteQuery(copy.source, options)])
  }

  /** The options `setStorageClass` copies with: a copy of the caller's
      options (dropping undefined fields) with `storageClass` set to the
      normalised name. */
  function StorageClassOptions(storageClass: string, options: Params): Params {
    Put(CopiedOptions(options), "storageClass", Str(NormalizeStorageClass(storageClass)))
  }

  /** The first call of `setStorageClass` rewrites the file onto itself
      with the normalised storage class in the body. */
  lemma StorageClassPlan(f: File, storageClass: string, options: Params)
    ensures var p := PlanCopy(f, ToFile(f), StorageClassOptions(storageClass, options));
      && p.Ok? && p.value.target == f
      && p.value.request.destBucket == f.bucket.name && p.value.request.destName == f.name
      && Get(p.value.request.body, "storageClass") == Str(NormalizeStorageClass(storageClass))
  {
    var opts := StorageClassOptions(storageClass, options);
    var copied := CopiedOptions(opts);
    CopiedOptionsGet(opts, "storageClass");
    assert Find(RewriteBody(f, copied), "storageClass") == Find(copied, "storageClass");
  }

  /** A rewrite loop whose destination is the source object itself keeps
      that object apart from the KMS key each call may set on it: the
      encryption key it takes on from the destination is its own. */
  lemma {:induction false} LoopKeepsSelf(f: File, p: CopyPlan, replies: seq<CopyReply>)
    requires p.target == f && p.source == f.(kmsKeyName := p.source.kmsKeyName)
    ensures var run := CopyLoopFrom(p, replies);
      run.source == f.(kmsKeyName := run.source.kmsKeyName)
    decreases |replies|
  {
    if replies != [] && Continues(replies[0]) {
      var next := NextPlan(p, replies[0].rewriteToken);
      assert next.source == f.(kmsKeyName := next.source.kmsKeyName);
      LoopKeepsSelf(f, next, replies[1..]);
    }
  }

  /** `File#setStorageClass`: a copy of the file onto itself whose body
      carries the normalised storage-class name. The destination is the very
      object being changed, so the KMS key a call sets on the source is the
      destination's too: on success the outcome is the file as the calls
      leave it, which differs from `f` at most in its KMS key. */
  function SetStorageClass(f: File, storageClass: string, options: Params, replies: seq<CopyReply>): (run: CopyRun)
    ensures |run.requests| == FirstStop(replies) + 1
    ensures run.requests[0].destBucket == f.bucket.name && run.requests[0].destName == f.name
    ensures Get(run.requests[0].body, "storageClass") == Str(NormalizeStorageClass(storageClass))
    ensures run.outcome.Copied? <==> FirstStop(replies) < |replies| && replies[FirstStop(replies)].Rewritten?
    ensures run.outcome.Copied? ==> run.outcome.file == run.source
    ensures run.source == f.(kmsKeyName := run.source.kmsKeyName)
  {
    var opts := StorageClassOptions(storageClass, options);
    StorageClassPlan(f, storageClass, options);
    var p := PlanCopy(f, ToFile(f), opts).value;
    CopyEndsAtFirstStop(p, replies);
    LoopKeepsSelf(f, p, replies);
    var run := CopyLoopFrom(p, replies);
    if run.outcome.Copied? then run.(outcome := Copied(run.source)) else run
  }
}

=== FILE: decimal.dfy ===
/** Decimal text of integers, as JavaScript's `String(n)` and template
    literals write an integral number, and a parser that reads it back. */
module Decimal {
  import opened Js

  predicate IsDigit(c: char) { '0' <= c <= '9' }

  predicate AllDigits(s: string) {
    forall i :: 0 <= i < |s| ==> IsDigit(s[i])
  }

  function DigitChar(d: nat): (c: char)
    requires d < 10
    ensures IsDigit(c)
  {
    ('0' as int + d) as char
  }

  function DigitValue(c: char): (d: nat)
    requires IsDigit(c)
    ensures d < 10
  {
    c as int - '0' as int
  }

  /** Decimal digits of `n`: never empty, no leading zero. */
  function NatToString(n: nat): (s: string)
    ensures |s| >= 1 && AllDigits(s)
    ensures |s| > 1 ==> s[0] != '0'
  {
    if n < 10 then [DigitChar(n)] else NatToString(n / 10) + [DigitChar(n % 10)]
  }

  /** `String(i)` for an integral number (a leading `-` when negative). */
  function IntToString(i: int): (s: string)
    ensures |s| >= 1
    ensures s[0] == '-' <==> i < 0
  {
    if i < 0 then "-" + NatToString(-i) else NatToString(i)
  }

  function ParseNat(s: string): nat
    requires AllDigits(s)
  {
    if s == [] then 0 else 10 * ParseNat(s[..|s| - 1]) + DigitValue(s[|s| - 1])
  }

  /** Reads an optionally negative decimal integer; `None` for anything else. */
  function ParseInt(s: string): Option<int> {
    if |s| >= 2 && s[0] == '-' && AllDigits(s[1..]) then Some(0 - (ParseNat(s[1..]) as int))
    else if |s| >= 1 && AllDigits(s) then Some(ParseNat(s))
    else None
  }

  lemma {:induction false} ParseNatToString(n: nat)
    ensures ParseNat(NatToString(n)) == n
  {
    if n >= 10 {
      var s := NatToString(n);
      assert s[..|s| - 1] == NatToString(n / 10);
      ParseNatToString(n / 10);
    }
  }

  lemma NegativeRoundTrip(n: nat)
    requires n > 0
    ensures ParseInt("-" + NatToString(n)) == Some(-(n as int))
  {
    var s := "-" + NatToString(n);
    assert s[1..] == NatToString(n);
    ParseNatToString(n);
  }

  lemma NonNegativeRoundTrip(n: nat)
    ensures ParseInt(NatToString(n)) == Some(n)
  {
    var s := NatToString(n);
    assert IsDigit(s[0]);
    ParseNatToString(n);
  }

  /** Reading back the text of any integer gives the integer. */
  lemma IntToStringRoundTrip(i: int)
    ensures ParseInt(IntToString(i)) == Some(i)
  {
    if i < 0 {
      NegativeRoundTrip(-i);
    } else {
      NonNegativeRoundTrip(i);
    }
  }

  /** Distinct integers have distinct text. */
  lemma IntToStringInjective(i: int, j: int)
    ensures IntToString(i) == IntToString(j) ==> i == j
  {
    IntToStringRoundTrip(i);
    IntToStringRoundTrip(j);
  }
}

=== FILE: file_object.dfy ===
/** The `File` handle: the bucket it belongs to, its object name and the
    optional generation, KMS key, billing project and customer-supplied
    encryption key; its constructor, the request hook that adds the
    billing project, and `makePrivate`. */
module FileObject {
  import opened Js
  import opened Names

  /** The parent bucket, as far as a file uses it. */
  datatype Bucket = Bucket(name: string, userProject: Value)

  /** A customer-supplied AES-256 key together with its base64 form and the
      base64 SHA-256 digest the API expects; the digest is computed outside
      this model. */
  datatype EncryptionKey = EncryptionKey(raw: string, base64: string, sha256: string)

  datatype File = File(
    bucket: Bucket,
    name: string,
    generation: Option<int>,
    kmsKeyName: Value,
    userProject: Value,
    encryption: Option<EncryptionKey>)

  /** Constructor options; `encryptionKey` is `None` when not given (or
      falsy). */
  datatype FileOptions = FileOptions(
    encryptionKey: Option<EncryptionKey>,
    generation: Value,
    kmsKeyName: Value,
    userProject: Value)

  const NoOptions := FileOptions(None, Undefined, Undefined, Undefined)

  /** The `generation` option: a number is kept, a string is converted with
      `Number(...)` (here the parameter `toNumber`, `None` standing for
      `NaN`), and `null`/`undefined` leave the file unversioned. */
  function ParseGeneration(g: Value, toNumber: string -> Option<int>): (r: Option<int>)
    ensures g.Num? ==> r == Some(g.n)
    ensures g.Str? ==> r == toNumber(g.s)
    ensures g == Undefined || g == Null ==> r == None
  {
    match g
    case Num(n) => Some(n)
    case Str(s) => toNumber(s)
    case _ => None
  }

  /** `new File(bucket, name, options)`. */
  function NewFile(bucket: Bucket, name: string, options: FileOptions, toNumber: string -> Option<int>): (f: File)
    ensures f.bucket == bucket
    ensures f.name == StripLeadingSlashes(name)
    ensures Truthy(options.userProject) ==> f.userProject == options.userProject
    ensures !Truthy(options.userProject) ==> f.userProject == bucket.userProject
    ensures f.generation == ParseGeneration(options.generation, toNumber)
    ensures f.encryption == options.encryptionKey && f.kmsKeyName == options.kmsKeyName
  {
    var stripped := StripLeadingSlashes(name);
    File(
      bucket,
      stripped,
      ParseGeneration(options.generation, toNumber),
      options.kmsKeyName,
      if Truthy(options.userProject) then options.userProject else bucket.userProject,
      options.encryptionKey)
  }

  /** `bucket.file(name)`: a file with no constructor options. */
  function FileIn(bucket: Bucket, name: string): File {
    NewFile(bucket, name, NoOptions, _ => None)
  }

  /** `this.requestQueryObject`: the generation, when the file has one. */
  function RequestQuery(f: File): (q: Params)
    ensures f.generation.Some? ==> q == [("generation", Num(f.generation.value))]
    ensures f.generation.None? ==> q == []
  {
    match f.generation
    case Some(g) => [("generation", Num(g))]
    case None => []
  }

  /** `File#request`: the file's billing project is added to the query
      unless the query already carries a truthy `userProject`. */
  function WithUserProject(userProject: Value, qs: Params): (r: Params)
    ensures Truthy(Get(qs, "userProject")) || !Truthy(userProject) ==> r == qs
    ensures !Truthy(Get(qs, "userProject")) && Truthy(userProject) ==> Get(r, "userProject") == userProject
  {
    if Truthy(userProject) && !Truthy(Get(qs, "userProject"))
    then Put(qs, "userProject", userProject)
    else qs
  }

  /** The hook touches no other query parameter. */
  lemma WithUserProjectOther(userProject: Value, qs: Params, k: string)
    requires k != "userProject"
    ensures Get(WithUserProject(userProject, qs), k) == Get(qs, k)
  {
    if Truthy(userProject) && !Truthy(Get(qs, "userProject")) {
      PutOther(qs, "userProject", userProject, k);
    }
  }

  /** Adding the billing project a second time changes nothing. */
  lemma WithUserProjectIdempotent(userProject: Value, qs: Params)
    ensures WithUserProject(userProject, WithUserProject(userProject, qs)) == WithUserProject(userProject, qs)
  {
  }

  /** The metadata write `setMetadata(metadata, query)` issues. */
  datatype MetadataUpdate = MetadataUpdate(metadata: Params, query: Params)

  datatype MakePrivateOptions = MakePrivateOptions(strict: Value, userProject: Value)

  /** `File#makePrivate`: clear the ACL and apply the `private` (when
      `strict`) or `projectPrivate` predefined ACL; `setMetadata` merges in
      the file's generation and `File#request` the billing project. */
  function MakePrivate(f: File, options: MakePrivateOptions): (u: MetadataUpdate)
    ensures u.metadata == [("acl", Null)]
    ensures Get(u.query, "predefinedAcl") == Str(if Truthy(options.strict) then "private" else "projectPrivate")
    ensures Truthy(options.userProject) ==> Get(u.query, "userProject") == options.userProject
    ensures !Truthy(options.userProject) ==> Get(u.query, "userProject") == (if Truthy(f.userProject) then f.userProject else Undefined)
    ensures Get(u.query, "generation") == (if f.generation.Some? then Num(f.generation.value) else Undefined)
  {
    var acl := [("predefinedAcl", Str(if Truthy(options.strict) then "private" else "projectPrivate"))];
    var query := if Truthy(options.userProject) then acl + [("userProject", options.userProject)] else acl;
    FindAppend(acl, [("userProject", options.userProject)], "generation");
    FindAppend(acl, [("userProject", options.userProject)], "userProject");
    FindAppend(acl, [("userProject", options.userProject)], "predefinedAcl");
    FindSingleton("predefinedAcl", acl[0].1, "generation");
    FindSingleton("predefinedAcl", acl[0].1, "userProject");
    FindSingleton("predefinedAcl", acl[0].1, "predefinedAcl");
    FindSingleton("userProject", options.userProject, "generation");
    FindSingleton("userProject", options.userProject, "userProject");
    var generation := if f.generation.Some? then Num(f.generation.value) else Undefined;
    FindSingleton("generation", generation, "generation");
    FindSingleton("generation", generation, "userProject");
    FindSingleton("generation", generation, "predefinedAcl");
    var merged := Extend(RequestQuery(f), query);
    ExtendGet(RequestQuery(f), query, "generation");
    ExtendGet(RequestQuery(f), query, "userProject");
    ExtendGet(RequestQuery(f), query, "predefinedAcl");
    WithUserProjectOther(f.userProject, merged, "generation");
    WithUserProjectOther(f.userProject, merged, "predefinedAcl");
    MetadataUpdate([("acl", Null)], WithUserProject(f.userProject, merged))
  }
}

=== FILE: integrity.dfy ===
/** Data-integrity checking shared by downloads and uploads: which checksum
    the `validation` option asks for, when a transfer counts as a mismatch,
    and the error codes the client reports. */
module Integrity {
  import opened Js
  import opened Text

  /** The checks a transfer runs: CRC32C and/or MD5. */
  datatype Checks = Checks(crc32c: bool, md5: bool)

  const NoChecks := Checks(false, false)

  predicate Requested(c: Checks) { c.crc32c || c.md5 }

  /** The `validation` option (`"crc32c"`, `"md5"`, `false`, ...) turned into
      checks: CRC32C by default; a string (in any letter case) selects the
      check it names and nothing else; `false` turns checking off. */
  function ValidationChecks(validation: Value): (c: Checks)
    ensures !(c.crc32c && c.md5)
    ensures validation.Str? ==> (c.crc32c <==> SameIgnoringCase(validation.s, "crc32c"))
    ensures validation.Str? ==> (c.md5 <==> SameIgnoringCase(validation.s, "md5"))
    ensures !validation.Str? ==> !c.md5 && (c.crc32c <==> validation != Bool(false))
  {
    LowerEqualsIffSameIgnoringCase(if validation.Str? then validation.s else "", "crc32c");
    LowerEqualsIffSameIgnoringCase(if validation.Str? then validation.s else "", "md5");
    match validation
    case Str(s) => Checks(Lower(s) == "crc32c", Lower(s) == "md5")
    case Bool(false) => Checks(false, false)
    case _ => Checks(true, false)
  }

  /** A string naming neither checksum disables both. */
  lemma UnknownValidationStringDisablesAll(s: string)
    requires !SameIgnoringCase(s, "crc32c") && !SameIgnoringCase(s, "md5")
    ensures ValidationChecks(Str(s)) == NoChecks
  {
  }

  datatype HashKind = Crc32c | Md5

  /** The checksums the object's metadata reports; an absent or empty field
      is "not supplied". */
  datatype ServerHashes = ServerHashes(crc32c: Option<string>, md5Hash: Option<string>)

  predicate Supplied(h: Option<string>) { h.Some? && h.value != "" }

  /** `test(kind, hash)`: whether the locally computed checksum of `kind`
      agrees with the server's `hash`. The checksum computation (including
      dropping the first four characters of the CRC32C field) is outside this
      model, so the test is a parameter. */
  type HashTest = (HashKind, string) -> bool

  /** The `failed` flag of the source: assumed failed when any check is
      requested, then overwritten by the CRC32C test (if the server supplied
      a CRC32C) and then by the MD5 test (if it supplied an MD5). */
  function Mismatch(c: Checks, h: ServerHashes, test: HashTest): bool {
    var afterCrc := if c.crc32c && Supplied(h.crc32c) then !test(Crc32c, h.crc32c.value) else Requested(c);
    if c.md5 && Supplied(h.md5Hash) then !test(Md5, h.md5Hash.value) else afterCrc
  }

  /** A transfer whose checks came from the `validation` option mismatches
      exactly when a check was requested and the checksum it needs is
      missing or does not pass. */
  lemma MismatchMeaning(validation: Value, h: ServerHashes, test: HashTest)
    ensures var c := ValidationChecks(validation);
      Mismatch(c, h, test) <==>
        (c.crc32c && !(Supplied(h.crc32c) && test(Crc32c, h.crc32c.value)))
        || (c.md5 && !(Supplied(h.md5Hash) && test(Md5, h.md5Hash.value)))
  {
  }

  /** The client's integrity errors, named after their `code` strings. */
  datatype ErrorCode =
    | ContentDownloadMismatch   // CONTENT_DOWNLOAD_MISMATCH
    | Md5NotAvailable           // MD5_NOT_AVAILABLE
    | FileNoUpload              // FILE_NO_UPLOAD
    | FileNoUploadDelete        // FILE_NO_UPLOAD_DELETE
}

=== FILE: js.dfy ===
/** JavaScript values as the storage client sees them: option objects,
    query-string objects and the truthiness tests the client applies to them.

    A plain JavaScript object is modelled as an ordered list of key/value
    pairs, because the client relies on insertion order in places (the
    extension headers of a signed URL, the query of a signed URL). */
module Js {

  datatype Option<+T> = None | Some(value: T)

  datatype Result<+T, +E> = Ok(value: T) | Err(error: E)

  /** The values an option or query field can hold. Numbers are integers:
      every number the modelled code inspects is a byte offset, a
      generation, a status code or a timestamp. `Record` stands for any
      other (non-array) object. */
  datatype Value =
    | Undefined
    | Null
    | Bool(b: bool)
    | Num(n: int)
    | Str(s: string)
    | Arr(items: seq<Value>)
    | Record

  /** JavaScript truthiness (`if (v)`). */
  predicate Truthy(v: Value) {
    match v
    case Undefined => false
    case Null => false
    case Bool(b) => b
    case Num(n) => n != 0
    case Str(s) => s != ""
    case Arr(_) => true
    case Record => true
  }

  /** `is.defined(v)`: anything but `undefined`. */
  predicate Defined(v: Value) {
    v != Undefined
  }

  /** An ordered plain object. */
  type Obj<V> = seq<(string, V)>

  type Params = Obj<Value>

  /** The keys in insertion order (`Object.keys`). */
  function Keys<V>(o: Obj<V>): (ks: seq<string>)
    ensures |ks| == |o|
    ensures forall i :: 0 <= i < |o| ==> ks[i] == o[i].0
  {
    if o == [] then [] else [o[0].0] + Keys(o[1..])
  }

  /** The value stored under `k`, looking at the first entry with that key. */
  function Find<V>(o: Obj<V>, k: string): (r: Option<V>)
  {
    if o == [] then None
    else if o[0].0 == k then Some(o[0].1)
    else Find(o[1..], k)
  }

  predicate HasKey<V>(o: Obj<V>, k: string) {
    Find(o, k).Some?
  }

  /** A one-entry object holds exactly its entry. */
  lemma FindSingleton<V>(k: string, v: V, k': string)
    ensures Find([(k, v)], k') == if k == k' then Some(v) else None
  {
    assert [(k, v)][1..] == [];
  }

  /** Looking a key up in a concatenation looks in the first part first. */
  lemma FindAppend<V>(a: Obj<V>, b: Obj<V>, k: string)
    ensures Find(a + b, k) == if HasKey(a, k) then Find(a, k) else Find(b, k)
  {
    if a != [] {
      assert (a + b)[1..] == a[1..] + b;
      FindAppend(a[1..], b, k);
    } else {
      assert a + b == b;
    }
  }

  /** An entry that is present only when `present` holds. */
  function Optional<V>(present: bool, k: string, v: V): Obj<V> {
    if present then [(k, v)] else []
  }

  lemma FindOptional<V>(present: bool, k: string, v: V, k': string)
    ensures Find(Optional(present, k, v), k') == if present && k == k' then Some(v) else None
  {
    FindSingleton(k, v, k');
  }

  /** Property access `o[k]` on a value object: `undefined` when absent. */
  function Get(o: Params, k: string): Value {
    match Find(o, k)
    case Some(v) => v
    case None => Undefined
  }

  /** Assignment `o[k] = v`: an existing key keeps its position and takes the
      new value, a new key is appended at the end. */
  function Put<V>(o: Obj<V>, k: string, v: V): (r: Obj<V>)
    ensures Find(r, k) == Some(v)
  {
    if o == [] then [(k, v)]
    else if o[0].0 == k then [(k, v)] + o[1..]
    else [o[0]] + Put(o[1..], k, v)
  }

  /** Assignment leaves every other key as it was. */
  lemma {:induction false} PutOther<V>(o: Obj<V>, k: string, v: V, k': string)
    requires k' != k
    ensures Find(Put(o, k, v), k') == Find(o, k')
  {
    if o != [] && o[0].0 != k {
      PutOther(o[1..], k, v, k');
    }
  }

  /** Assignment keeps the order of the keys, appending a new one. */
  lemma {:induction false} PutKeys<V>(o: Obj<V>, k: string, v: V)
    ensures HasKey(o, k) ==> Keys(Put(o, k, v)) == Keys(o)
    ensures !HasKey(o, k) ==> Keys(Put(o, k, v)) == Keys(o) + [k]
  {
    if o != [] && o[0].0 != k {
      PutKeys(o[1..], k, v);
      assert Keys(Put(o, k, v)) == [o[0].0] + Keys(Put(o[1..], k, v));
    }
  }

  /** `delete o[k]`. */
  function Remove<V>(o: Obj<V>, k: string): (r: Obj<V>)
    ensures Find(r, k) == None
    ensures |r| <= |o|
  {
    if o == [] then []
    else if o[0].0 == k then Remove(o[1..], k)
    else [o[0]] + Remove(o[1..], k)
  }

  /** Deleting a key leaves every other key as it was. */
  lemma {:induction false} RemoveOther<V>(o: Obj<V>, k: string, k': string)
    requires k' != k
    ensures Find(Remove(o, k), k') == Find(o, k')
  {
    if o != [] {
      RemoveOther(o[1..], k, k');
    }
  }

  /** Deleting a key the object does not have leaves it as it was. */
  lemma {:induction false} RemoveAbsent<V>(o: Obj<V>, k: string)
    requires !HasKey(o, k)
    ensures Remove(o, k) == o
  {
    if o != [] {
      RemoveAbsent(o[1..], k);
    }
  }

  /** `extend(target, source)` (shallow): every defined field of `source` is
      assigned onto `target`, in `source`'s order; `undefined` fields are
      skipped. */
  function Extend(target: Params, source: Params): Params
    decreases |source|
  {
    if source == [] then target
    else if !Defined(source[0].1) then Extend(target, Remove(source[1..], source[0].0))
    else Extend(Put(target, source[0].0, source[0].1), Remove(source[1..], source[0].0))
  }

  /** After `extend`, a key holds the source's value when that is defined,
      and the target's otherwise. */
  lemma {:induction false} ExtendGet(target: Params, source: Params, k: string)
    ensures Get(Extend(target, source), k) == if Defined(Get(source, k)) then Get(source, k) else Get(target, k)
    decreases |source|
  {
    if source != [] {
      var (k0, v0) := source[0];
      var rest := Remove(source[1..], k0);
      var t := if Defined(v0) then Put(target, k0, v0) else target;
      ExtendGet(t, rest, k);
      if k != k0 {
        RemoveOther(source[1..], k0, k);
        if Defined(v0) {
          PutOther(target, k0, v0, k);
        }
      }
    }
  }

  /** A server reply to a plain request: the response body, or an error
      carrying its HTTP status code. */
  datatype Reply = Success(body: Value) | Failure(code: int)
}

=== FILE: names.dfy ===
/** Object-name handling in `File`: leading slashes are stripped from object
    names, storage-class names are normalised to the API's upper-case form,
    and a `gs://bucket/name` destination is split into bucket and name. */
module Names {
  import opened Js
  import opened Text

  // ---------------------------------------------------------------------
  // Leading slashes (`name.replace(/^\/+/, '')`)
  // ---------------------------------------------------------------------

  /** The result is the suffix of `s` left after its run of leading slashes. */
  function StripLeadingSlashes(s: string): (r: string)
    ensures |r| <= |s| && r == s[|s| - |r|..]
    ensures forall i :: 0 <= i < |s| - |r| ==> s[i] == '/'
    ensures r == [] || r[0] != '/'
  {
    if s != [] && s[0] == '/' then StripLeadingSlashes(s[1..]) else s
  }

  /** Stripping twice strips nothing more. */
  lemma StripIdempotent(s: string)
    ensures StripLeadingSlashes(StripLeadingSlashes(s)) == StripLeadingSlashes(s)
  {
  }

  /** Stripping leaves a name alone exactly when it does not start with `/`. */
  lemma StripUnchangedIff(s: string)
    ensures StripLeadingSlashes(s) == s <==> (s == [] || s[0] != '/')
  {
  }

  // ---------------------------------------------------------------------
  // Storage-class names (file.js `setStorageClass`)
  // ---------------------------------------------------------------------

  /** `replace(/-/g, '_')`. */
  function DashesToUnderscores(s: string): (t: string)
    ensures |t| == |s|
    ensures forall i :: 0 <= i < |s| ==> t[i] == (if s[i] == '-' then '_' else s[i])
  {
    seq(|s|, i requires 0 <= i < |s| => if s[i] == '-' then '_' else s[i])
  }

  /** `replace(/([a-z])([A-Z])/g, '$1_$2')`: a global scan that, after each
      match, resumes right behind the upper-case letter it consumed. */
  function SplitCamelCase(s: string): string
  {
    if |s| < 2 then s
    else if IsLower(s[0]) && IsUpper(s[1]) then [s[0], '_', s[1]] + SplitCamelCase(s[2..])
    else [s[0]] + SplitCamelCase(s[1..])
  }

  /** The storage-class normalisation: dashes become underscores, an
      underscore is inserted at every lower-to-upper case boundary, and the
      whole name is upper-cased. */
  function NormalizeStorageClass(s: string): string {
    Upper(SplitCamelCase(DashesToUnderscores(s)))
  }

  predicate NoLowerLetter(s: string) {
    forall i :: 0 <= i < |s| ==> !IsLower(s[i])
  }

  predicate NoDash(s: string) {
    forall i :: 0 <= i < |s| ==> s[i] != '-'
  }

  lemma {:induction false} SplitCamelKeepsNoDash(s: string)
    requires NoDash(s)
    ensures NoDash(SplitCamelCase(s))
  {
    if |s| >= 2 {
      if IsLower(s[0]) && IsUpper(s[1]) {
        SplitCamelKeepsNoDash(s[2..]);
      } else {
        SplitCamelKeepsNoDash(s[1..]);
      }
    }
  }

  lemma {:induction false} SplitCamelWithoutLowerIsIdentity(s: string)
    requires NoLowerLetter(s)
    ensures SplitCamelCase(s) == s
  {
    if |s| >= 2 {
      SplitCamelWithoutLowerIsIdentity(s[1..]);
      assert [s[0]] + s[1..] == s;
    }
  }

  /** A normalised name has no lower-case letter and no dash. */
  lemma NormalizedShape(s: string)
    ensures NoLowerLetter(NormalizeStorageClass(s))
    ensures NoDash(NormalizeStorageClass(s))
  {
    SplitCamelKeepsNoDash(DashesToUnderscores(s));
  }

  /** Normalising a normalised name changes nothing. */
  lemma NormalizeIdempotent(s: string)
    ensures NormalizeStorageClass(NormalizeStorageClass(s)) == NormalizeStorageClass(s)
  {
    var t := NormalizeStorageClass(s);
    NormalizedShape(s);
    assert DashesToUnderscores(t) == t;
    SplitCamelWithoutLowerIsIdentity(t);
    assert Upper(t) == t;
  }

  // ---------------------------------------------------------------------
  // gs:// destinations (file.js GS_URL_REGEXP = /^gs:\/\/([a-z0-9_.-]+)\/(.+)$/)
  // ---------------------------------------------------------------------

  /** The character class `[a-z0-9_.-]` of a bucket in a gs:// URL. */
  predicate BucketChar(c: char) {
    'a' <= c <= 'z' || '0' <= c <= '9' || c == '_' || c == '.' || c == '-'
  }

  /** The characters a regular-expression `.` does not match. */
  predicate LineTerminator(c: char) {
    c == '\n' || c == '\r' || c == '\U{2028}' || c == '\U{2029}'
  }

  /** What it means for `s` to match the gs:// pattern with the two capture
      groups `bucket` and `name`. */
  predicate GsUrlMatch(s: string, bucket: string, name: string) {
    && s == "gs://" + bucket + "/" + name
    && |bucket| >= 1 && (forall i :: 0 <= i < |bucket| ==> BucketChar(bucket[i]))
    && |name| >= 1 && (forall i :: 0 <= i < |name| ==> !LineTerminator(name[i]))
  }

  /** Length of the longest prefix of `s` made of bucket characters. */
  function BucketPrefixLength(s: string): (k: nat)
    ensures k <= |s|
    ensures forall i :: 0 <= i < k ==> BucketChar(s[i])
    ensures k < |s| ==> !BucketChar(s[k])
  {
    if s != [] && BucketChar(s[0]) then 1 + BucketPrefixLength(s[1..]) else 0
  }

  /** `GS_URL_REGEXP.exec(s)`: the two capture groups, or `None`. */
  function ParseGsUrl(s: string): Option<(string, string)> {
    if |s| >= 5 && s[..5] == "gs://" then
      var rest := s[5..];
      var k := BucketPrefixLength(rest);
      if 1 <= k < |rest| && rest[k] == '/' && k + 1 < |rest|
         && (forall i :: k + 1 <= i < |rest| ==> !LineTerminator(rest[i]))
      then Some((rest[..k], rest[k + 1..]))
      else None
    else None
  }

  /** Whatever the parser returns is a match of the pattern. */
  lemma ParseGsUrlSound(s: string)
    ensures ParseGsUrl(s).Some? ==> GsUrlMatch(s, ParseGsUrl(s).value.0, ParseGsUrl(s).value.1)
  {
    if ParseGsUrl(s).Some? {
      var rest := s[5..];
      var k := BucketPrefixLength(rest);
      var (b, n) := ParseGsUrl(s).value;
      assert rest == b + "/" + n;
      assert s == s[..5] + rest;
    }
  }

  lemma {:induction false} BucketPrefixStopsAtSlash(b: string, tail: string)
    requires forall i :: 0 <= i < |b| ==> BucketChar(b[i])
    ensures BucketPrefixLength(b + "/" + tail) == |b|
  {
    if b != [] {
      assert (b + "/" + tail)[1..] == b[1..] + "/" + tail;
      BucketPrefixStopsAtSlash(b[1..], tail);
    }
  }

  /** Every match of the pattern is found by the parser, with the same
      capture groups. */
  lemma ParseGsUrlComplete(s: string, bucket: string, name: string)
    requires GsUrlMatch(s, bucket, name)
    ensures ParseGsUrl(s) == Some((bucket, name))
  {
    var rest := s[5..];
    assert rest == bucket + "/" + name;
    BucketPrefixStopsAtSlash(bucket, name);
    var k := |bucket|;
    assert rest[..k] == bucket;
    assert rest[k + 1..] == name;
    assert forall i :: k + 1 <= i < |rest| ==> rest[i] == name[i - k - 1];
  }
}

=== FILE: notification.dfy ===
/** `Notification`: a Pub/Sub notification configuration of a bucket, and
    its `get` (with `autoCreate`), `getMetadata` and `delete`. The server
    is a scripted sequence of replies, one per request in the order the
    requests are made. */
module Notifications {
  import opened Js

  datatype Notification = Notification(bucket: string, id: string, metadata: Value)

  /** A request the notification makes: the HTTP verb, its path relative
      to `/notificationConfigs/<id>` and its query. */
  datatype ApiRequest = ApiRequest(verb: string, uri: string, qs: Params)

  /** What `getMetadata` reports: the notification afterwards, the request
      it sent, and the metadata or the error code. */
  datatype MetadataRun = MetadataRun(notification: Notification, request: ApiRequest, result: Result<Value, int>)

  /** `Notification#getMetadata`: a GET with the options as query; a
      successful response is stored as the notification's metadata. */
  function GetMetadata(n: Notification, options: Params, reply: Reply): (r: MetadataRun)
    ensures r.request == ApiRequest("GET", "", options)
    ensures r.notification.bucket == n.bucket && r.notification.id == n.id
    ensures reply.Success? ==> r.result == Ok(reply.body) && r.notification.metadata == reply.body
    ensures reply.Failure? ==> r.result == Err(reply.code) && r.notification == n
  {
    var request := ApiRequest("GET", "", options);
    match reply
    case Success(body) => MetadataRun(n.(metadata := body), request, Ok(body))
    case Failure(code) => MetadataRun(n, request, Err(code))
  }

  /** Reading the metadata twice with the same reply is the same as reading
      it once. */
  lemma GetMetadataIdempotent(n: Notification, options: Params, reply: Reply)
    ensures var once := GetMetadata(n, options, reply);
      GetMetadata(once.notification, options, reply) == once
  {
  }

  /** `Notification#delete`: a DELETE with the options as query; the
      callback gets the error code, if any. */
  function Delete(options: Params, reply: Reply): (r: (ApiRequest, Option<int>))
    ensures r.0.verb == "DELETE" && r.0.uri == "" && r.0.qs == options
    ensures r.1.Some? <==> reply.Failure?
    ensures reply.Failure? ==> r.1 == Some(reply.code)
  {
    (ApiRequest("DELETE", "", options), if reply.Failure? then Some(reply.code) else None)
  }

  /** A call `get` makes: `getMetadata` with a query, or `create` with its
      options (absent when they are empty). */
  datatype NotificationCall = GetMetadataCall(qs: Params) | CreateCall(options: Option<Params>)

  /** What the `get` callback receives: this notification with fresh
      metadata, the notification `create` made (its API response), or the
      error code. `GetAwaiting` means the scripted replies ran out. */
  datatype GetOutcome = Found(notification: Notification) | Created(response: Value) | GetFailed(code: int) | GetAwaiting

  datatype GetRun = GetRun(outcome: GetOutcome, calls: seq<NotificationCall>, used: nat)

  /** The `create` call of `get`: the options go along only when some
      remain after `autoCreate` is taken out. */
  function CreateFor(qs: Params): (c: NotificationCall)
    ensures c.CreateCall?
    ensures c.options.None? <==> |qs| == 0
    ensures c.options.Some? ==> c.options.value == qs
  {
    CreateCall(if qs == [] then None else Some(qs))
  }

  /** `Notification#get`. `autoCreate` is taken out of the options; the
      metadata is read with what remains. On a 404 with a truthy
      `autoCreate` the notification is created; if creating it fails with
      409 (someone else created it first) `get` starts over with the
      options, which no longer carry `autoCreate`. */
  function GetNotification(n: Notification, options: Params, replies: seq<Reply>): (r: GetRun)
    ensures r.used <= |replies|
    ensures |r.calls| >= 1 && r.calls[0] == GetMetadataCall(Remove(options, "autoCreate"))
    ensures r.outcome.Found? ==>
      && 1 <= r.used
      && replies[r.used - 1].Success?
      && r.outcome.notification == n.(metadata := replies[r.used - 1].body)
    ensures r.outcome.GetAwaiting? ==> r.used == |replies|
    ensures r.outcome.Created? ==> 2 <= r.used && replies[r.used - 1] == Success(r.outcome.response)
    ensures r.outcome.GetFailed? ==> 1 <= r.used && replies[r.used - 1] == Failure(r.outcome.code)
    decreases |replies|
  {
    var autoCreate := Js.Get(options, "autoCreate");
    var qs := Remove(options, "autoCreate");
    if replies == [] then GetRun(GetAwaiting, [GetMetadataCall(qs)], 0)
    else
      var fetched := GetMetadata(n, qs, replies[0]);
      match fetched.result
      case Ok(_) => GetRun(Found(fetched.notification), [GetMetadataCall(qs)], 1)
      case Err(code) =>
        if code == 404 && Truthy(autoCreate) then
          var first := [GetMetadataCall(qs), CreateFor(qs)];
          if |replies| == 1 then GetRun(GetAwaiting, first, 1)
          else
            match replies[1]
            case Success(body) => GetRun(Created(body), first, 2)
            case Failure(created) =>
              if created == 409 then
                var again := GetNotification(n, qs, replies[2..]);
                GetRun(again.outcome, first + again.calls, 2 + again.used)
              else GetRun(GetFailed(created), first, 2)
        else GetRun(GetFailed(code), [GetMetadataCall(qs)], 1)
  }

  /** Every call made with the query `qs`: a read of the metadata or the
      create call built from it. */
  predicate AllWithQuery(calls: seq<NotificationCall>, qs: Params) {
    forall i :: 0 <= i < |calls| ==> calls[i] == GetMetadataCall(qs) || calls[i] == CreateFor(qs)
  }

  /** Every call `get` makes uses the caller's options with `autoCreate`
      taken out, the retry after a 409 included, so `autoCreate` never
      reaches the server. */
  lemma {:induction false} GetQueriesOmitAutoCreate(n: Notification, options: Params, replies: seq<Reply>)
    ensures AllWithQuery(GetNotification(n, options, replies).calls, Remove(options, "autoCreate"))
    ensures !HasKey(Remove(options, "autoCreate"), "autoCreate")
    decreases |replies|
  {
    var qs := Remove(options, "autoCreate");
    var r := GetNotification(n, options, replies);
    if 2 <= |replies| && replies[0] == Failure(404) && Truthy(Js.Get(options, "autoCreate"))
       && replies[1] == Failure(409) {
      var again := GetNotification(n, qs, replies[2..]);
      GetQueriesOmitAutoCreate(n, qs, replies[2..]);
      RemoveAbsent(qs, "autoCreate");
      assert r.calls == [GetMetadataCall(qs), CreateFor(qs)] + again.calls;
      assert forall i :: 2 <= i < |r.calls| ==> r.calls[i] == again.calls[i - 2];
    }
  }

  /** The number of create calls. */
  function CreateCount(calls: seq<NotificationCall>): nat {
    if calls == [] then 0 else (if calls[0].CreateCall? then 1 else 0) + CreateCount(calls[1..])
  }

  lemma {:induction false} CreateCountAppend(a: seq<NotificationCall>, b: seq<NotificationCall>)
    ensures CreateCount(a + b) == CreateCount(a) + CreateCount(b)
  {
    if a != [] {
      assert (a + b)[1..] == a[1..] + b;
      CreateCountAppend(a[1..], b);
    } else {
      assert a + b == b;
    }
  }

  /** `get` creates the notification at most once, and only when
      `autoCreate` is truthy and the first read answered 404: the retry
      after a 409 has lost `autoCreate`, so a second 404 is an error. */
  lemma {:induction false} GetCreatesAtMostOnce(n: Notification, options: Params, replies: seq<Reply>)
    ensures CreateCount(GetNotification(n, options, replies).calls) <= 1
    ensures CreateCount(GetNotification(n, options, replies).calls) == 1 ==>
      1 <= |replies| && Truthy(Js.Get(options, "autoCreate")) && replies[0] == Failure(404)
    decreases |replies|
  {
    var qs := Remove(options, "autoCreate");
    var r := GetNotification(n, options, replies);
    if 1 <= |replies| && replies[0] == Failure(404) && Truthy(Js.Get(options, "autoCreate")) {
      var first := [GetMetadataCall(qs), CreateFor(qs)];
      assert CreateCount(first) == 1 by {
        assert first[1..] == [CreateFor(qs)];
        assert first[1..][1..] == [];
        assert CreateCount(first[1..]) == 1;
      }
      if 2 <= |replies| && replies[1] == Failure(409) {
        var again := GetNotification(n, qs, replies[2..]);
        GetCreatesAtMostOnce(n, qs, replies[2..]);
        assert !Truthy(Js.Get(qs, "autoCreate"));
        CreateCountAppend(first, again.calls);
      }
    } else if 1 <= |replies| {
      assert CreateCount(r.calls) == CreateCount([GetMetadataCall(qs)]) == 0;
    }
  }

  /** Unless it is a 404 with a truthy `autoCreate`, the first reply
      settles `get` after one read of the metadata: success yields this
      notification with the metadata, and a failure (a 404 without
      `autoCreate` included) yields the error. */
  lemma FirstReadDecides(n: Notification, options: Params, reply: Reply, rest: seq<Reply>)
    requires !(reply == Failure(404) && Truthy(Js.Get(options, "autoCreate")))
    ensures var r := GetNotification(n, options, [reply] + rest);
      && r.calls == [GetMetadataCall(Remove(options, "autoCreate"))]
      && r.used == 1
      && r.outcome == (if reply.Success? then Found(n.(metadata := reply.body)) else GetFailed(reply.code))
  {
    assert ([reply] + rest)[0] == reply;
  }

  /** With `autoCreate`, a 404 followed by a 409 from `create` reads the
      metadata again, exactly as `get` without `autoCreate` would. */
  lemma ConflictRetries(n: Notification, options: Params, replies: seq<Reply>)
    requires Truthy(Js.Get(options, "autoCreate"))
    requires 2 <= |replies| && replies[0] == Failure(404) && replies[1] == Failure(409)
    ensures var qs := Remove(options, "autoCreate");
      var r := GetNotification(n, options, replies);
      var again := GetNotification(n, qs, replies[2..]);
      && r.outcome == again.outcome
      && r.calls == [GetMetadataCall(qs), CreateFor(qs)] + again.calls
      && r.used == 2 + again.used
  {
  }

  /** With `autoCreate`, a 404 leads to `create`: its success answers with
      the created notification's response, and any failure other than 409
      is passed on with no further call. */
  lemma CreateOutcomes(n: Notification, options: Params, replies: seq<Reply>)
    requires Truthy(Js.Get(options, "autoCreate"))
    requires 2 <= |replies| && replies[0] == Failure(404)
    ensures var qs := Remove(options, "autoCreate");
      var r := GetNotification(n, options, replies);
      && (replies[1].Success? ==>
            r == GetRun(Created(replies[1].body), [GetMetadataCall(qs), CreateFor(qs)], 2))
      && (replies[1].Failure? && replies[1].code != 409 ==>
            r == GetRun(GetFailed(replies[1].code), [GetMetadataCall(qs), CreateFor(qs)], 2))
  {
  }
}

=== FILE: read_stream.dfy ===
/** `File#createReadStream`: how the options decide between a full and a
    ranged download, the request it sends, the `Range` header, and the
    verdict reached once the body has been received. */
module ReadStream {
  import opened Js
  import opened Decimal
  import opened Integrity
  import opened FileObject

  datatype ReadOptions = ReadOptions(start: Value, end: Value, validation: Value, userProject: Value)

  /** A byte range is requested when `start` or `end` is a number. */
  predicate RangeRequest(o: ReadOptions) { o.start.Num? || o.end.Num? }

  /** A tail range is requested when `end` is a negative number. */
  predicate TailRequest(o: ReadOptions) { o.end.Num? && o.end.n < 0 }

  /** The `Range` header value: `bytes=<end>` for a tail request (the text of
      a negative number starts with `-`), otherwise
      `bytes=<start or 0>-<end or nothing>`. */
  function RangeHeader(o: ReadOptions): string {
    var start := if o.start.Num? then IntToString(o.start.n) else "0";
    var end := if o.end.Num? then IntToString(o.end.n) else "";
    "bytes=" + (if TailRequest(o) then end else start + "-" + end)
  }

  datatype ReadError = ValidationWithRange

  datatype ReadRequest = ReadRequest(checks: Checks, query: Params, headers: Params)

  /** The checks and the GET request of a download, or the error thrown when
      a checksum is explicitly asked for on a ranged download. */
  function PlanRead(f: File, o: ReadOptions): (r: Result<ReadRequest, ReadError>)
    ensures r.Err? <==> RangeRequest(o) && (o.validation.Str? || o.validation == Bool(true))
    ensures r.Ok? && RangeRequest(o) ==> r.value.checks == NoChecks
    ensures r.Ok? && !RangeRequest(o) ==> r.value.checks == ValidationChecks(o.validation)
    ensures r.Ok? ==> r.value.query == ReadQuery(f, o)
    ensures r.Ok? ==> r.value.headers == ReadHeaders(o)
  {
    if RangeRequest(o) && (o.validation.Str? || o.validation == Bool(true)) then Err(ValidationWithRange)
    else
      var checks := if RangeRequest(o) then NoChecks else ValidationChecks(o.validation);
      Ok(ReadRequest(checks, ReadQuery(f, o), ReadHeaders(o)))
  }

  /** The query of the media GET: `alt=media`, then the generation when it is
      truthy (a generation of 0 is left out), then the billing project. */
  function ReadQuery(f: File, o: ReadOptions): (q: Params)
    ensures Get(q, "alt") == Str("media")
    ensures Get(q, "generation") == (if f.generation.Some? && f.generation.value != 0 then Num(f.generation.value) else Undefined)
    ensures Get(q, "userProject") == (if Truthy(o.userProject) then o.userProject else Undefined)
  {
    var generation := if f.generation.Some? && f.generation.value != 0 then [("generation", Num(f.generation.value))] else [];
    var project := if Truthy(o.userProject) then [("userProject", o.userProject)] else [];
    var q := [("alt", Str("media"))] + generation + project;
    FindAppend([("alt", Str("media"))] + generation, project, "userProject");
    FindAppend([("alt", Str("media"))] + generation, project, "generation");
    FindAppend([("alt", Str("media"))], generation, "generation");
    FindAppend([("alt", Str("media"))], generation, "userProject");
    q
  }

  /** The headers of the media GET: gzip is always accepted, and a ranged
      download adds its `Range` header. */
  function ReadHeaders(o: ReadOptions): (h: Params)
    ensures Get(h, "Accept-Encoding") == Str("gzip")
    ensures HasKey(h, "Range") <==> RangeRequest(o)
    ensures RangeRequest(o) ==> Get(h, "Range") == Str(RangeHeader(o))
  {
    var gzip := [("Accept-Encoding", Str("gzip"))];
    FindAppend(gzip, [("Range", Str(RangeHeader(o)))], "Range");
    if RangeRequest(o) then gzip + [("Range", Str(RangeHeader(o)))] else gzip
  }

  // ---------------------------------------------------------------------
  // The header read as a byte-range set (section 2.1 of RFC 7233)
  // ---------------------------------------------------------------------

  /** One byte-range-spec (`first-last` with an optional last byte) or a
      suffix-byte-range-spec (`-length`, the last `length` bytes). */
  datatype ByteRange = FromTo(first: nat, last: Option<nat>) | Suffix(length: nat)

  /** Reads `bytes=<range>` with a single byte-range-spec or
      suffix-byte-range-spec. */
  function ParseRangeHeader(h: string): Option<ByteRange> {
    if |h| < 6 || h[..6] != "bytes=" then None else ParseRangeSpec(h[6..])
  }

  function ParseRangeSpec(spec: string): Option<ByteRange> {
    if |spec| >= 2 && spec[0] == '-' && AllDigits(spec[1..]) then Some(Suffix(ParseNat(spec[1..])))
    else
      var k := DigitPrefixLength(spec);
      if 1 <= k < |spec| && spec[k] == '-' && AllDigits(spec[k + 1..]) then
        var last := spec[k + 1..];
        Some(FromTo(ParseNat(spec[..k]), if last == "" then None else Some(ParseNat(last))))
      else None
  }

  function DigitPrefixLength(s: string): (k: nat)
    ensures k <= |s| && AllDigits(s[..k])
    ensures k < |s| ==> !IsDigit(s[k])
  {
    if s != [] && IsDigit(s[0]) then
      var k := 1 + DigitPrefixLength(s[1..]);
      assert s[..k] == [s[0]] + s[1..][..k - 1];
      k
    else 0
  }

  /** The range an option set asks for, when `start` is absent or a
      non-negative number. */
  function IntendedRange(o: ReadOptions): ByteRange
    requires RangeRequest(o) && !(o.start.Num? && o.start.n < 0)
  {
    if TailRequest(o) then Suffix(-o.end.n)
    else FromTo(if o.start.Num? then o.start.n else 0, if o.end.Num? then Some(o.end.n) else None)
  }

  lemma {:induction false} DigitPrefixOfNumber(n: nat, tail: string)
    requires tail == [] || !IsDigit(tail[0])
    ensures DigitPrefixLength(NatToString(n) + tail) == |NatToString(n)|
  {
    var s := NatToString(n);
    DigitsThenStop(s, tail);
  }

  lemma {:induction false} DigitsThenStop(s: string, tail: string)
    requires AllDigits(s)
    requires tail == [] || !IsDigit(tail[0])
    ensures DigitPrefixLength(s + tail) == |s|
  {
    if s != [] {
      assert (s + tail)[1..] == s[1..] + tail;
      DigitsThenStop(s[1..], tail);
    }
  }

  lemma HeaderPrefix(spec: string)
    ensures ParseRangeHeader("bytes=" + spec) == ParseRangeSpec(spec)
  {
    var h := "bytes=" + spec;
    assert h[..6] == "bytes=";
    assert h[6..] == spec;
  }

  lemma SuffixHeaderParses(n: nat)
    ensures ParseRangeHeader("bytes=" + "-" + NatToString(n)) == Some(Suffix(n))
  {
    var spec := "-" + NatToString(n);
    HeaderPrefix(spec);
    assert spec[1..] == NatToString(n);
    ParseNatToString(n);
  }

  lemma FromToSpecParses(first: nat, lastText: string)
    requires AllDigits(lastText)
    ensures ParseRangeSpec(NatToString(first) + "-" + lastText)
      == Some(FromTo(first, if lastText == "" then None else Some(ParseNat(lastText))))
  {
    var firstText := NatToString(first);
    var spec := firstText + "-" + lastText;
    assert spec[0] == firstText[0];
    assert !(|spec| >= 2 && spec[0] == '-');
    assert spec == firstText + ("-" + lastText);
    DigitPrefixOfNumber(first, "-" + lastText);
    var k := |firstText|;
    assert spec[..k] == firstText;
    assert spec[k] == '-';
    assert spec[k + 1..] == lastText;
    ParseNatToString(first);
  }

  lemma FromToHeaderParses(first: nat, last: Option<nat>)
    ensures var lastText := if last.Some? then NatToString(last.value) else "";
      ParseRangeHeader("bytes=" + (NatToString(first) + "-" + lastText)) == Some(FromTo(first, last))
  {
    var lastText := if last.Some? then NatToString(last.value) else "";
    HeaderPrefix(NatToString(first) + "-" + lastText);
    FromToSpecParses(first, lastText);
    if last.Some? {
      ParseNatToString(last.value);
    }
  }

  /** Whenever `start` is absent or non-negative, the header the client
      sends denotes exactly the range the options ask for: a negative `end`
      becomes a suffix range of that many bytes (and `start` is ignored),
      anything else a first-last range starting at `start` or 0. */
  lemma RangeHeaderMeaning(o: ReadOptions)
    requires RangeRequest(o) && !(o.start.Num? && o.start.n < 0)
    ensures ParseRangeHeader(RangeHeader(o)) == Some(IntendedRange(o))
  {
    if TailRequest(o) {
      assert RangeHeader(o) == "bytes=" + "-" + NatToString(-o.end.n);
      SuffixHeaderParses(-o.end.n);
    } else {
      var first: nat := if o.start.Num? then o.start.n else 0;
      var last: Option<nat> := if o.end.Num? then Some(o.end.n) else None;
      var lastText := if last.Some? then NatToString(last.value) else "";
      assert RangeHeader(o) == "bytes=" + (NatToString(first) + "-" + lastText);
      FromToHeaderParses(first, last);
    }
  }

  // ---------------------------------------------------------------------
  // End of the download
  // ---------------------------------------------------------------------

  /** How the returned stream finishes: it ends normally, or it is destroyed
      with a transport error (carrying its status code) or with one of the
      client's integrity errors. */
  datatype DownloadEnd = Ended | TransportFailed(status: int) | IntegrityFailed(code: ErrorCode)

  /** The verdict once the body has been received. A ranged download ends at
      once. Otherwise the object's metadata is fetched again (`refresh`, an
      error status or the checksums it reports) and the requested check is
      judged: MD5 requested but not supplied is `MD5_NOT_AVAILABLE`, any
      other mismatch is `CONTENT_DOWNLOAD_MISMATCH`. */
  function DownloadVerdict(range: bool, c: Checks, refresh: Result<ServerHashes, int>, test: HashTest): (e: DownloadEnd)
    ensures range ==> e == Ended
    ensures !range && refresh.Err? ==> e == TransportFailed(refresh.error)
    ensures !range && refresh.Ok? ==>
      var h := refresh.value;
      && (e == IntegrityFailed(Md5NotAvailable) <==> c.md5 && !Supplied(h.md5Hash))
      && (e == Ended <==>
            if c.md5 then Supplied(h.md5Hash) && test(Md5, h.md5Hash.value)
            else !c.crc32c || (Supplied(h.crc32c) && test(Crc32c, h.crc32c.value)))
      && (e == IntegrityFailed(ContentDownloadMismatch) <==>
            !(c.md5 && !Supplied(h.md5Hash)) && Mismatch(c, h, test))
      && (e.IntegrityFailed? || e == Ended)
  {
    if range then Ended
    else match refresh
      case Err(status) => TransportFailed(status)
      case Ok(h) =>
        if c.md5 && !Supplied(h.md5Hash) then IntegrityFailed(Md5NotAvailable)
        else if Mismatch(c, h, test) then IntegrityFailed(ContentDownloadMismatch)
        else Ended
  }

  /** The whole download as seen from the options: a ranged download never
      reports an integrity error, and a full download with the default
      options reports `CONTENT_DOWNLOAD_MISMATCH` when the server supplies no
      CRC32C. */
  lemma DownloadDecisions(f: File, o: ReadOptions, refresh: Result<ServerHashes, int>, test: HashTest)
    requires PlanRead(f, o).Ok?
    ensures RangeRequest(o) ==> DownloadVerdict(true, PlanRead(f, o).value.checks, refresh, test) == Ended
    ensures !RangeRequest(o) && o.validation == Undefined && refresh.Ok? && !Supplied(refresh.value.crc32c) ==>
      DownloadVerdict(false, PlanRead(f, o).value.checks, refresh, test) == IntegrityFailed(ContentDownloadMismatch)
    ensures !RangeRequest(o) && o.validation == Bool(false) && refresh.Ok? ==>
      DownloadVerdict(false, PlanRead(f, o).value.checks, refresh, test) == Ended
  {
  }
}

=== FILE: signed_policy.dfy ===
/** `File#getSignedPolicy`: the condition list of a POST policy document,
    the shape errors that reject the options, and the signing outcome. The
    JSON and base64 encodings and the signer are parameters. */
module SignedPolicy {
  import opened Js
  import opened FileObject

  /** The options. `expires` is the expiry in milliseconds since the epoch
      (`None` for a date JavaScript cannot read); `contentLengthRange` holds
      the `min` and `max` fields of a truthy range object and is `None` when
      the option is falsy. */
  datatype PolicyOptions = PolicyOptions(
    expires: Option<int>,
    equals: Value,
    startsWith: Value,
    acl: Value,
    successRedirect: Value,
    successStatus: Value,
    contentLengthRange: Option<(Value, Value)>)

  /** One entry of the policy's `conditions` array. */
  datatype Condition =
    | KeyIs(name: string)                   // ['eq', '$key', name]
    | BucketIs(bucket: string)              // {bucket}
    | Equals(field: Value, value: Value)    // ['eq', field, value]
    | StartsWith(field: Value, prefix: Value) // ['starts-with', field, prefix]
    | AclIs(acl: Value)                     // {acl}
    | RedirectTo(url: Value)                // {success_action_redirect}
    | StatusIs(status: Value)               // {success_action_status}
    | LengthRange(min: int, max: int)       // ['content-length-range', min, max]

  /** The errors thrown while the policy is built. */
  datatype PolicyError =
    | PastExpiry          // the expiry lies before the current time
    | EqualsShape         // some `equals` entry is not a two-element array
    | StartsWithShape     // some `startsWith` entry is not a two-element array
    | LengthRangeShape    // the range's `min` or `max` is not a number
    | InvalidExpiry       // `toISOString` rejects a date it cannot read

  /** The position of each kind of condition in the list. */
  function Rank(c: Condition): nat {
    match c
    case KeyIs(_) => 0
    case BucketIs(_) => 1
    case Equals(_, _) => 2
    case StartsWith(_, _) => 3
    case AclIs(_) => 4
    case RedirectTo(_) => 5
    case StatusIs(_) => 6
    case LengthRange(_, _) => 7
  }

  /** Each condition's rank is at most the next one's. */
  predicate RanksSorted(cs: seq<Condition>) {
    |cs| <= 1 || (Rank(cs[0]) <= Rank(cs[1]) && RanksSorted(cs[1..]))
  }

  /** Every condition has a rank between `lo` and `hi`. */
  predicate RanksWithin(cs: seq<Condition>, lo: nat, hi: nat) {
    cs == [] || (lo <= Rank(cs[0]) <= hi && RanksWithin(cs[1..], lo, hi))
  }

  /** The pair list of `equals` or `startsWith`: an array whose first item
      is not an array is one pair and is wrapped into a list of one (an
      empty array included); anything but an array gives no pairs. */
  function PairList(v: Value): seq<Value> {
    if !v.Arr? then []
    else if v.items != [] && v.items[0].Arr? then v.items
    else [v]
  }

  /** A well-formed pair: an array of exactly two elements. */
  predicate IsPair(p: Value) {
    p.Arr? && |p.items| == 2
  }

  predicate AllPairs(ps: seq<Value>) {
    forall i :: 0 <= i < |ps| ==> IsPair(ps[i])
  }

  datatype PairKind = EqualsPair | StartsWithPair

  function PairCondition(kind: PairKind, p: Value): Condition
    requires IsPair(p)
  {
    match kind
    case EqualsPair => Equals(p.items[0], p.items[1])
    case StartsWithPair => StartsWith(p.items[0], p.items[1])
  }

  /** The conditions of a pair list, in order, or `None` when some pair is
      not an array of two elements. */
  function PairConditions(kind: PairKind, ps: seq<Value>): (r: Option<seq<Condition>>)
    ensures r.Some? <==> AllPairs(ps)
    ensures r.Some? ==> |r.value| == |ps|
    ensures r.Some? ==> forall i :: 0 <= i < |ps| ==> r.value[i] == PairCondition(kind, ps[i])
  {
    if ps == [] then Some([])
    else if !IsPair(ps[0]) then None
    else
      match PairConditions(kind, ps[1..])
      case None =>
        assert !IsPair(ps[1..][0]) || !AllPairs(ps[1..]);
        None
      case Some(rest) => Some([PairCondition(kind, ps[0])] + rest)
  }

  /** The conditions of a pair list all have the rank of their kind, so
      they are sorted. */
  lemma {:induction false} PairConditionsRank(kind: PairKind, ps: seq<Value>)
    requires AllPairs(ps)
    ensures var k := if kind == EqualsPair then 2 else 3;
      RanksWithin(PairConditions(kind, ps).value, k, k) && RanksSorted(PairConditions(kind, ps).value)
  {
    if ps != [] {
      assert AllPairs(ps[1..]) by {
        forall i | 0 <= i < |ps[1..]| ensures IsPair(ps[1..][i]) {
          assert ps[1..][i] == ps[i + 1];
        }
      }
      PairConditionsRank(kind, ps[1..]);
      var cs := PairConditions(kind, ps).value;
      assert cs[1..] == PairConditions(kind, ps[1..]).value;
    }
  }

  /** The single-valued conditions after the pairs: ACL, redirect and
      status, each present exactly when its option is truthy. */
  function FieldConditions(o: PolicyOptions): (cs: seq<Condition>)
    ensures (AclIs(o.acl) in cs) <==> Truthy(o.acl)
    ensures (RedirectTo(o.successRedirect) in cs) <==> Truthy(o.successRedirect)
    ensures (StatusIs(o.successStatus) in cs) <==> Truthy(o.successStatus)
    ensures |cs| == (if Truthy(o.acl) then 1 else 0) + (if Truthy(o.successRedirect) then 1 else 0)
      + (if Truthy(o.successStatus) then 1 else 0)
    ensures RanksSorted(cs) && RanksWithin(cs, 4, 6)
  {
    var acl := IfPresent(Truthy(o.acl), AclIs(o.acl));
    var redirect := IfPresent(Truthy(o.successRedirect), RedirectTo(o.successRedirect));
    var status := IfPresent(Truthy(o.successStatus), StatusIs(o.successStatus));
    SortedAppend(redirect, status, 5, 5, 6, 6);
    SortedAppend(acl, redirect + status, 4, 4, 5, 6);
    WithinWiden(acl, 4, 4, 4, 6);
    WithinAppend(acl, redirect + status, 4, 6);
    acl + (redirect + status)
  }

  /** The list holding `c` exactly when `present` holds. */
  function IfPresent(present: bool, c: Condition): (cs: seq<Condition>)
    ensures c in cs <==> present
    ensures |cs| == if present then 1 else 0
    ensures RanksSorted(cs) && RanksWithin(cs, Rank(c), Rank(c))
  {
    if present then [c] else []
  }

  /** The content-length condition: none for a falsy option, the range for
      numeric `min` and `max`, an error otherwise. */
  function RangeCondition(range: Option<(Value, Value)>): (r: Result<seq<Condition>, PolicyError>)
    ensures range.None? ==> r == Ok([])
    ensures range.Some? && range.value.0.Num? && range.value.1.Num? ==>
      r == Ok([LengthRange(range.value.0.n, range.value.1.n)])
    ensures range.Some? && !(range.value.0.Num? && range.value.1.Num?) ==> r == Err(LengthRangeShape)
    ensures r.Ok? ==> RanksSorted(r.value) && RanksWithin(r.value, 7, 7)
  {
    match range
    case None => Ok([])
    case Some((min, max)) =>
      if min.Num? && max.Num? then Ok([LengthRange(min.n, max.n)]) else Err(LengthRangeShape)
  }

  /** Widening the bounds keeps a list within them. */
  lemma {:induction false} WithinWiden(cs: seq<Condition>, lo: nat, hi: nat, lo': nat, hi': nat)
    requires RanksWithin(cs, lo, hi) && lo' <= lo && hi <= hi'
    ensures RanksWithin(cs, lo', hi')
  {
    if cs != [] {
      WithinWiden(cs[1..], lo, hi, lo', hi');
    }
  }

  lemma {:induction false} WithinAppend(a: seq<Condition>, b: seq<Condition>, lo: nat, hi: nat)
    requires RanksWithin(a, lo, hi) && RanksWithin(b, lo, hi)
    ensures RanksWithin(a + b, lo, hi)
  {
    if a == [] {
      assert a + b == b;
    } else {
      WithinAppend(a[1..], b, lo, hi);
      assert (a + b)[1..] == a[1..] + b;
    }
  }

  /** A sorted list of ranks in `[alo, ahi]` followed by a sorted list of
      ranks in `[blo, bhi]`, with `ahi <= blo`, is sorted and within
      `[alo, bhi]` when `alo <= blo` and `ahi <= bhi`. */
  lemma {:induction false} SortedAppend(a: seq<Condition>, b: seq<Condition>, alo: nat, ahi: nat, blo: nat, bhi: nat)
    requires RanksSorted(a) && RanksWithin(a, alo, ahi)
    requires RanksSorted(b) && RanksWithin(b, blo, bhi)
    requires ahi <= blo
    ensures RanksSorted(a + b)
  {
    if a == [] {
      assert a + b == b;
    } else {
      SortedAppend(a[1..], b, alo, ahi, blo, bhi);
      assert (a + b)[1..] == a[1..] + b;
      if |a| == 1 && b != [] {
        assert (a + b)[1] == b[0];
      }
    }
  }

  /** The condition list, after the expiry check: the object key and the
      bucket first, then the `equals` pairs, the `startsWith` pairs, the
      ACL, the redirect, the status and the length range, in that order.
      Malformed pairs are reported for `equals` before `startsWith`, and
      both before a malformed length range. */
  function PolicyConditions(f: File, o: PolicyOptions): (r: Result<seq<Condition>, PolicyError>)
    ensures r == Err(EqualsShape) <==> !AllPairs(PairList(o.equals))
    ensures r == Err(StartsWithShape) <==> AllPairs(PairList(o.equals)) && !AllPairs(PairList(o.startsWith))
    ensures r == Err(LengthRangeShape) <==>
      AllPairs(PairList(o.equals)) && AllPairs(PairList(o.startsWith)) && RangeCondition(o.contentLengthRange).Err?
    ensures r.Ok? ==> |r.value| >= 2 + |PairList(o.equals)| + |PairList(o.startsWith)|
    ensures r.Ok? ==> r.value[0] == KeyIs(f.name) && r.value[1] == BucketIs(f.bucket.name)
    ensures r.Ok? ==> forall i :: 0 <= i < |PairList(o.equals)| ==>
      IsPair(PairList(o.equals)[i]) && r.value[2 + i] == PairCondition(EqualsPair, PairList(o.equals)[i])
    ensures r.Ok? ==> forall i :: 0 <= i < |PairList(o.startsWith)| ==>
      IsPair(PairList(o.startsWith)[i])
      && r.value[2 + |PairList(o.equals)| + i] == PairCondition(StartsWithPair, PairList(o.startsWith)[i])
    ensures r.Ok? ==>
      && RangeCondition(o.contentLengthRange).Ok?
      && r.value[2 + |PairList(o.equals)| + |PairList(o.startsWith)|..]
           == FieldConditions(o) + RangeCondition(o.contentLengthRange).value
    ensures r.Ok? ==> RanksSorted(r.value)
  {
    var base := [KeyIs(f.name), BucketIs(f.bucket.name)];
    match PairConditions(EqualsPair, PairList(o.equals))
    case None => Err(EqualsShape)
    case Some(eq) =>
      match PairConditions(StartsWithPair, PairList(o.startsWith))
      case None => Err(StartsWithShape)
      case Some(sw) =>
        match RangeCondition(o.contentLengthRange)
        case Err(e) => Err(e)
        case Ok(lr) =>
          PairConditionsRank(EqualsPair, PairList(o.equals));
          PairConditionsRank(StartsWithPair, PairList(o.startsWith));
          Ok(ConditionList(f, eq, sw, FieldConditions(o), lr))
  }

  /** The key and bucket conditions followed by the blocks of each kind;
      the result is sorted when each block is. */
  function ConditionList(f: File, eq: seq<Condition>, sw: seq<Condition>, fields: seq<Condition>, lr: seq<Condition>)
    : (all: seq<Condition>)
    requires RanksSorted(eq) && RanksWithin(eq, 2, 2)
    requires RanksSorted(sw) && RanksWithin(sw, 3, 3)
    requires RanksSorted(fields) && RanksWithin(fields, 4, 6)
    requires RanksSorted(lr) && RanksWithin(lr, 7, 7)
    ensures |all| == 2 + |eq| + |sw| + |fields| + |lr|
    ensures all[0] == KeyIs(f.name) && all[1] == BucketIs(f.bucket.name)
    ensures forall i :: 0 <= i < |eq| ==> all[2 + i] == eq[i]
    ensures forall i :: 0 <= i < |sw| ==> all[2 + |eq| + i] == sw[i]
    ensures all[2 + |eq| + |sw|..] == fields + lr
    ensures RanksSorted(all)
  {
    var base := [KeyIs(f.name), BucketIs(f.bucket.name)];
    var tail := fields + lr;
    SortedAppend(fields, lr, 4, 6, 7, 7);
    WithinWiden(fields, 4, 6, 4, 7);
    WithinWiden(lr, 7, 7, 4, 7);
    WithinAppend(fields, lr, 4, 7);
    SortedAppend(sw, tail, 3, 3, 4, 7);
    WithinWiden(sw, 3, 3, 3, 7);
    WithinWiden(tail, 4, 7, 3, 7);
    WithinAppend(sw, tail, 3, 7);
    SortedAppend(eq, sw + tail, 2, 2, 3, 7);
    WithinWiden(eq, 2, 2, 2, 7);
    WithinWiden(sw + tail, 3, 7, 2, 7);
    WithinAppend(eq, sw + tail, 2, 7);
    assert RanksWithin(base, 0, 1) && RanksSorted(base);
    SortedAppend(base, eq + (sw + tail), 0, 1, 2, 7);
    base + (eq + (sw + tail))
  }

  /** `equals: [field, value]` (a single pair whose first item is not an
      array) stands for the list `[[field, value]]`: it becomes the one
      equality condition, right after the key and the bucket. */
  lemma SinglePairWrapped(f: File, o: PolicyOptions, field: Value, value: Value)
    requires !field.Arr? && o.equals == Arr([field, value])
    requires PolicyConditions(f, o).Ok?
    ensures PairList(o.equals) == [Arr([field, value])]
    ensures PolicyConditions(f, o).value[2] == Equals(field, value)
  {
    var p := Arr([field, value]);
    assert PairList(o.equals) == [p];
    assert PairCondition(EqualsPair, p) == Equals(field, value);
  }

  /** An empty array is wrapped into a list holding one empty pair, which is
      rejected. */
  lemma EmptyPairListRejected(f: File, o: PolicyOptions)
    requires o.equals == Arr([])
    ensures PolicyConditions(f, o) == Err(EqualsShape)
  {
    assert !IsPair(PairList(o.equals)[0]);
  }

  /** The document that is serialised and signed. */
  datatype PolicyDocument = PolicyDocument(expiration: int, conditions: seq<Condition>)

  /** What the callback receives: the serialised policy, its base64 form and
      the signature, or the signer's error message (`SigningError`). */
  datatype PolicyOutcome =
    | SignedPolicy(policyString: string, policyBase64: string, signature: string)
    | PolicySigningFailed(message: string)

  /** `File#getSignedPolicy` with the clock reading `now` (milliseconds),
      the JSON serialiser `stringify`, the base64 encoder `base64` and the
      signer `sign` (the signature or the error message). */
  function GetSignedPolicy(f: File, o: PolicyOptions, now: int,
                           stringify: PolicyDocument -> string, base64: string -> string,
                           sign: string -> Result<string, string>): (r: Result<PolicyOutcome, PolicyError>)
    ensures r == Err(PastExpiry) <==> o.expires.Some? && o.expires.value < now
    ensures o.expires.Some? && o.expires.value >= now ==>
      (r.Err? <==> PolicyConditions(f, o).Err?) && (r.Err? ==> r.error == PolicyConditions(f, o).error)
    ensures o.expires.None? ==> r.Err?
    ensures r.Ok? ==>
      var text := stringify(PolicyDocument(o.expires.value, PolicyConditions(f, o).value));
      r.value == (match sign(base64(text))
                  case Ok(signature) => SignedPolicy(text, base64(text), signature)
                  case Err(message) => PolicySigningFailed(message))
  {
    if o.expires.Some? && o.expires.value < now then Err(PastExpiry)
    else
      match PolicyConditions(f, o)
      case Err(e) => Err(e)
      case Ok(conditions) =>
        if o.expires.None? then Err(InvalidExpiry)
        else
          var text := stringify(PolicyDocument(o.expires.value, conditions));
          match sign(base64(text))
          case Ok(signature) => Ok(SignedPolicy(text, base64(text), signature))
          case Err(message) => Ok(PolicySigningFailed(message))
  }
}

=== FILE: signed_url.dfy ===
/** `File#getSignedUrl`: the HTTP verb, the expiry in seconds, the
    canonical extension headers, the string that is signed and the query
    of the resulting URL. URL encoding, the signer and the credential
    lookup are parameters. */
module SignedUrl {
  import opened Js
  import opened Text
  import opened Decimal
  import opened FileObject

  /** The configuration. `expires` is in milliseconds since the epoch;
      `contentMd5`, `contentType` and `cname` are `""` when not given (the
      client writes `''` for a falsy value); `extensionHeaders` is `[]` when
      not given. */
  datatype UrlConfig = UrlConfig(
    action: string,
    expires: int,
    contentMd5: string,
    contentType: string,
    extensionHeaders: Obj<string>,
    responseType: Value,
    promptSaveAs: Value,
    responseDisposition: Value,
    cname: string)

  /** The error thrown before anything is signed. */
  datatype UrlError = PastExpiry

  /** The HTTP verb of an action; an unknown action gives `undefined`,
      which the string to sign shows as the empty line. */
  function Verb(action: string): (v: string)
    ensures v == "GET" <==> action == "read"
    ensures v == "PUT" <==> action == "write"
    ensures v == "DELETE" <==> action == "delete"
    ensures v == "POST" <==> action == "resumable"
    ensures v == "" <==> action !in {"read", "write", "delete", "resumable"}
  {
    if action == "read" then "GET"
    else if action == "write" then "PUT"
    else if action == "delete" then "DELETE"
    else if action == "resumable" then "POST"
    else ""
  }

  /** The action a verb stands for. */
  function ActionOf(verb: string): string {
    if verb == "GET" then "read"
    else if verb == "PUT" then "write"
    else if verb == "DELETE" then "delete"
    else "resumable"
  }

  /** The verb determines the action: no two actions share a verb. */
  lemma VerbDeterminesAction(action: string)
    requires Verb(action) != ""
    ensures ActionOf(Verb(action)) == action
  {
  }

  /** `Math.round(ms / 1000)`: the whole number of seconds nearest to `ms`
      milliseconds, halves rounding up. */
  function ExpirySeconds(ms: int): (secs: int)
    ensures 1000 * secs - 500 <= ms < 1000 * secs + 500
  {
    (ms + 500) / 1000
  }

  /** Rounding is monotone: a later expiry never signs an earlier second. */
  lemma ExpirySecondsMonotone(a: int, b: int)
    requires a <= b
    ensures ExpirySeconds(a) <= ExpirySeconds(b)
  {
  }

  const ResumableHeader := "x-goog-resumable"

  /** The extension headers signed: a resumable upload sets
      `x-goog-resumable: start` on a copy of the caller's headers. */
  function ExtensionHeaders(verb: string, headers: Obj<string>): (h: Obj<string>)
    ensures verb == "POST" ==> Find(h, ResumableHeader) == Some("start")
    ensures verb != "POST" ==> h == headers
  {
    if verb == "POST" then Put(headers, ResumableHeader, "start") else headers
  }

  /** The resumable header comes after the caller's headers, unless the
      caller already set it, in which case every header keeps its place;
      no other header changes. */
  lemma ResumableHeaderPlacement(headers: Obj<string>, k: string)
    ensures !HasKey(headers, ResumableHeader) ==>
      Keys(ExtensionHeaders("POST", headers)) == Keys(headers) + [ResumableHeader]
    ensures HasKey(headers, ResumableHeader) ==>
      Keys(ExtensionHeaders("POST", headers)) == Keys(headers)
    ensures k != ResumableHeader ==> Find(ExtensionHeaders("POST", headers), k) == Find(headers, k)
  {
    PutKeys(headers, ResumableHeader, "start");
    if k != ResumableHeader {
      PutOther(headers, ResumableHeader, "start", k);
    }
  }

  /** `name:value` for one header. */
  function HeaderLine(header: (string, string)): string {
    header.0 + ":" + header.1
  }

  /** The headers as the lines of the string to sign. */
  function HeaderLines(headers: Obj<string>): (lines: seq<string>)
    ensures |lines| == |headers|
    ensures forall i :: 0 <= i < |headers| ==> lines[i] == HeaderLine(headers[i])
  {
    if headers == [] then [] else [HeaderLine(headers[0])] + HeaderLines(headers[1..])
  }

  /** The canonical extension headers: each header as `name:value` followed
      by a newline, in key order. */
  function CanonicalHeaders(headers: Obj<string>): string {
    if headers == [] then "" else HeaderLine(headers[0]) + "\n" + CanonicalHeaders(headers[1..])
  }

  /** The resource path `/<bucket>/<encoded name>`. */
  function Resource(f: File, encode: string -> string): string {
    "/" + f.bucket.name + "/" + encode(f.name)
  }

  /** The string to sign: the verb, the MD5, the content type and the
      expiry in seconds, one per line, then the canonical headers and the
      resource. */
  function StringToSign(f: File, cfg: UrlConfig, encode: string -> string): string {
    var verb := Verb(cfg.action);
    JoinLines([verb, cfg.contentMd5, cfg.contentType, IntToString(ExpirySeconds(cfg.expires)),
               CanonicalHeaders(ExtensionHeaders(verb, cfg.extensionHeaders)) + Resource(f, encode)])
  }

  predicate NewlineFreeHeaders(headers: Obj<string>) {
    forall i :: 0 <= i < |headers| ==> NoNewline(headers[i].0) && NoNewline(headers[i].1)
  }

  lemma IntToStringNoNewline(i: int)
    ensures NoNewline(IntToString(i))
  {
    var s := IntToString(i);
    if i < 0 {
      assert forall j :: 1 <= j < |s| ==> s[j] == NatToString(-i)[j - 1];
    }
  }

  lemma HeaderLineNoNewline(header: (string, string))
    requires NoNewline(header.0) && NoNewline(header.1)
    ensures NoNewline(HeaderLine(header))
  {
    var line := HeaderLine(header);
    forall j | 0 <= j < |line|
      ensures line[j] != '\n'
    {
      if j < |header.0| {
        assert line[j] == header.0[j];
      } else if j > |header.0| {
        assert line[j] == header.1[j - |header.0| - 1];
      }
    }
  }

  lemma {:induction false} SplitCanonicalHeaders(headers: Obj<string>, tail: string)
    requires NewlineFreeHeaders(headers)
    ensures SplitLines(CanonicalHeaders(headers) + tail) == HeaderLines(headers) + SplitLines(tail)
  {
    if headers != [] {
      var line := HeaderLine(headers[0]);
      var rest := CanonicalHeaders(headers[1..]);
      assert SplitLines(CanonicalHeaders(headers) + tail) == [line] + SplitLines(rest + tail) by {
        HeaderLineNoNewline(headers[0]);
        assert CanonicalHeaders(headers) + tail == line + "\n" + (rest + tail);
        SplitAtFirstNewline(line, rest + tail);
      }
      assert SplitLines(rest + tail) == HeaderLines(headers[1..]) + SplitLines(tail) by {
        assert NewlineFreeHeaders(headers[1..]) by {
          forall i | 0 <= i < |headers[1..]|
            ensures NoNewline(headers[1..][i].0) && NoNewline(headers[1..][i].1)
          {
            assert headers[1..][i] == headers[i + 1];
          }
        }
        SplitCanonicalHeaders(headers[1..], tail);
      }
      assert HeaderLines(headers) == [line] + HeaderLines(headers[1..]);
    } else {
      assert CanonicalHeaders(headers) + tail == tail;
    }
  }

  /** Joined lines split off again, all but the last of them free of
      newlines. */
  lemma {:induction false} SplitJoinedPrefix(lines: seq<string>)
    requires |lines| >= 1
    requires forall i :: 0 <= i < |lines| - 1 ==> NoNewline(lines[i])
    ensures SplitLines(JoinLines(lines)) == lines[..|lines| - 1] + SplitLines(lines[|lines| - 1])
  {
    if |lines| > 1 {
      var rest := lines[1..];
      var last := lines[|lines| - 1];
      assert SplitLines(JoinLines(rest)) == rest[..|rest| - 1] + SplitLines(last) by {
        assert forall i :: 0 <= i < |rest| - 1 ==> rest[i] == lines[i + 1];
        SplitJoinedPrefix(rest);
      }
      assert SplitLines(JoinLines(lines)) == [lines[0]] + SplitLines(JoinLines(rest)) by {
        SplitAtFirstNewline(lines[0], JoinLines(rest));
      }
      assert lines[..|lines| - 1] == [lines[0]] + rest[..|rest| - 1];
    }
  }

  /** Splitting the string to sign at its newlines gives back the verb, the
      MD5, the content type, the expiry, one `name:value` line per header
      and the resource, provided none of them contains a newline itself. */
  lemma StringToSignLines(f: File, cfg: UrlConfig, encode: string -> string)
    requires NoNewline(cfg.contentMd5) && NoNewline(cfg.contentType)
    requires NewlineFreeHeaders(ExtensionHeaders(Verb(cfg.action), cfg.extensionHeaders))
    requires NoNewline(Resource(f, encode))
    ensures var verb := Verb(cfg.action);
      SplitLines(StringToSign(f, cfg, encode)) ==
        [verb, cfg.contentMd5, cfg.contentType, IntToString(ExpirySeconds(cfg.expires))]
        + HeaderLines(ExtensionHeaders(verb, cfg.extensionHeaders))
        + [Resource(f, encode)]
  {
    var verb := Verb(cfg.action);
    var secs := IntToString(ExpirySeconds(cfg.expires));
    var headers := ExtensionHeaders(verb, cfg.extensionHeaders);
    var resource := Resource(f, encode);
    assert NoNewline(verb);
    IntToStringNoNewline(ExpirySeconds(cfg.expires));
    var lines := [verb, cfg.contentMd5, cfg.contentType, secs, CanonicalHeaders(headers) + resource];
    SplitJoinedPrefix(lines);
    assert lines[..4] == [verb, cfg.contentMd5, cfg.contentType, secs];
    SplitCanonicalHeaders(headers, resource);
    SplitNoNewline(resource);
  }

  /** The `response-content-disposition` value: `responseDisposition` when
      it is a string, else an attachment named by `promptSaveAs`. */
  function Disposition(cfg: UrlConfig): Value {
    if cfg.responseDisposition.Str? then cfg.responseDisposition
    else if cfg.promptSaveAs.Str? then Str("attachment; filename=\"" + cfg.promptSaveAs.s + "\"")
    else Undefined
  }

  /** The optional response parameters of the signed URL: the content
      type and the disposition when they are strings, and the generation
      when it is non-zero. The disposition entry is created by
      `promptSaveAs` and overwritten in place by `responseDisposition`, so
      either way it sits after the content type. */
  function ResponseQuery(f: File, cfg: UrlConfig): (q: Params)
    ensures !HasKey(q, "GoogleAccessId") && !HasKey(q, "Expires") && !HasKey(q, "Signature")
    ensures Get(q, "response-content-type") == (if cfg.responseType.Str? then cfg.responseType else Undefined)
    ensures Get(q, "response-content-disposition") == Disposition(cfg)
    ensures Get(q, "generation") ==
      (if f.generation.Some? && f.generation.value != 0 then Num(f.generation.value) else Undefined)
  {
    var d := Optional(cfg.responseType.Str?, "response-content-type", cfg.responseType);
    var e := Optional(Defined(Disposition(cfg)), "response-content-disposition", Disposition(cfg));
    var g := Optional(f.generation.Some? && f.generation.value != 0, "generation",
                      if f.generation.Some? then Num(f.generation.value) else Undefined);
    OptionalKeys(d, e, g, cfg, f);
    d + e + g
  }

  /** The query of the signed URL: the credentials' e-mail, the expiry in
      seconds and the signature, then the response parameters. */
  function UrlQuery(f: File, cfg: UrlConfig, email: string, secs: int, signature: string): Params {
    [("GoogleAccessId", Str(email)), ("Expires", Num(secs)), ("Signature", Str(signature))]
    + ResponseQuery(f, cfg)
  }

  /** Where each query parameter of the signed URL comes from. */
  lemma UrlQueryKeys(f: File, cfg: UrlConfig, email: string, secs: int, signature: string)
    ensures var q := UrlQuery(f, cfg, email, secs, signature);
      && Keys(q)[..3] == ["GoogleAccessId", "Expires", "Signature"]
      && Get(q, "GoogleAccessId") == Str(email)
      && Get(q, "Expires") == Num(secs)
      && Get(q, "Signature") == Str(signature)
      && Get(q, "response-content-type") == (if cfg.responseType.Str? then cfg.responseType else Undefined)
      && Get(q, "response-content-disposition") == Disposition(cfg)
      && Get(q, "generation") ==
           (if f.generation.Some? && f.generation.value != 0 then Num(f.generation.value) else Undefined)
  {
    FixedKeys(Str(email), Num(secs), Str(signature), ResponseQuery(f, cfg));
  }

  lemma FixedKeys(email: Value, secs: Value, signature: Value, rest: Params)
    requires !HasKey(rest, "GoogleAccessId") && !HasKey(rest, "Expires") && !HasKey(rest, "Signature")
    ensures var q := [("GoogleAccessId", email), ("Expires", secs), ("Signature", signature)] + rest;
      && Keys(q)[..3] == ["GoogleAccessId", "Expires", "Signature"]
      && Get(q, "GoogleAccessId") == email
      && Get(q, "Expires") == secs
      && Get(q, "Signature") == signature
      && forall k :: k != "GoogleAccessId" && k != "Expires" && k != "Signature" ==>
           Find(q, k) == Find(rest, k)
  {
    var a, b, c := [("GoogleAccessId", email)], [("Expires", secs)], [("Signature", signature)];
    assert [("GoogleAccessId", email), ("Expires", secs), ("Signature", signature)] + rest == (a + b + c) + rest;
    forall k
      ensures Find((a + b + c) + rest, k) ==
        if k == "GoogleAccessId" then Some(email)
        else if k == "Expires" then Some(secs)
        else if k == "Signature" then Some(signature)
        else Find(rest, k)
    {
      FindAppend(a + b + c, rest, k);
      FindAppend(a + b, c, k);
      FindAppend(a, b, k);
      FindSingleton("GoogleAccessId", email, k);
      FindSingleton("Expires", secs, k);
      FindSingleton("Signature", signature, k);
    }
  }

  lemma OptionalKeys(d: Params, e: Params, g: Params, cfg: UrlConfig, f: File)
    requires d == Optional(cfg.responseType.Str?, "response-content-type", cfg.responseType)
    requires e == Optional(Defined(Disposition(cfg)), "response-content-disposition", Disposition(cfg))
    requires g == Optional(f.generation.Some? && f.generation.value != 0, "generation",
                           if f.generation.Some? then Num(f.generation.value) else Undefined)
    ensures !HasKey(d + e + g, "GoogleAccessId") && !HasKey(d + e + g, "Expires") && !HasKey(d + e + g, "Signature")
    ensures Get(d + e + g, "response-content-type") == (if cfg.responseType.Str? then cfg.responseType else Undefined)
    ensures Get(d + e + g, "response-content-disposition") == Disposition(cfg)
    ensures Get(d + e + g, "generation") ==
      (if f.generation.Some? && f.generation.value != 0 then Num(f.generation.value) else Undefined)
  {
    forall k
      ensures Find(d + e + g, k) ==
        if k == "response-content-type" && cfg.responseType.Str? then Some(cfg.responseType)
        else if k == "response-content-disposition" && Defined(Disposition(cfg)) then Some(Disposition(cfg))
        else if k == "generation" && f.generation.Some? && f.generation.value != 0 then Some(Num(f.generation.value))
        else None
    {
      FindAppend(d + e, g, k);
      FindAppend(d, e, k);
      FindOptional(cfg.responseType.Str?, "response-content-type", cfg.responseType, k);
      FindOptional(Defined(Disposition(cfg)), "response-content-disposition", Disposition(cfg), k);
      FindOptional(f.generation.Some? && f.generation.value != 0, "generation",
                   if f.generation.Some? then Num(f.generation.value) else Undefined, k);
    }
  }

  const StorageDownloadBase := "https://storage.googleapis.com"

  /** The pieces of the signed URL: the origin (the `cname`, else the
      storage download host), the path and the query. */
  datatype SignedLink = SignedLink(origin: string, pathname: string, query: Params)

  /** What the callback receives: the URL, or the `SigningError` carrying
      the message of the failure. `NoCallback` is the outcome in which the
      callback is never called. */
  datatype UrlOutcome = UrlReady(link: SignedLink) | UrlSigningFailed(message: string) | NoCallback

  function Link(f: File, cfg: UrlConfig, encode: string -> string, email: string, signature: string): SignedLink {
    SignedLink(
      if cfg.cname != "" then cfg.cname else StorageDownloadBase,
      if cfg.cname != "" then encode(f.name) else f.bucket.name + "/" + encode(f.name),
      UrlQuery(f, cfg, email, ExpirySeconds(cfg.expires), signature))
  }

  /** `File#getSignedUrl` as written, with the clock reading `now`, the
      URL encoder `encode`, the signer `sign` and the result of
      `getCredentials` (the client e-mail or an error message). The
      credential lookup is started inside the signer's continuation without
      being returned, so its failure never reaches the error handler. */
  function GetSignedUrlAsWritten(f: File, cfg: UrlConfig, now: int, encode: string -> string,
                                 sign: string -> Result<string, string>, credentials: Result<string, string>)
    : (r: Result<UrlOutcome, UrlError>)
    ensures r.Err? <==> cfg.expires < now
  {
    if cfg.expires < now then Err(PastExpiry)
    else
      match sign(StringToSign(f, cfg, encode))
      case Err(message) => Ok(UrlSigningFailed(message))
      case Ok(signature) =>
        match credentials
        case Err(_) => Ok(NoCallback)
        case Ok(email) => Ok(UrlReady(Link(f, cfg, encode, email, signature)))
  }

  /** As written, a failed credential lookup after a successful signature
      leaves the caller without an answer. */
  lemma CredentialFailureIsSilent(f: File, cfg: UrlConfig, now: int, encode: string -> string,
                                  sign: string -> Result<string, string>, message: string)
    requires cfg.expires >= now && sign(StringToSign(f, cfg, encode)).Ok?
    ensures GetSignedUrlAsWritten(f, cfg, now, encode, sign, Err(message)) == Ok(NoCallback)
  {
  }

  /** `File#getSignedUrl` with the credential failure routed to the
      callback as a `SigningError`, like a signing failure: every call that
      does not throw answers the callback, and the answer is the URL exactly
      when both the signer and the credential lookup succeed. */
  function GetSignedUrl(f: File, cfg: UrlConfig, now: int, encode: string -> string,
                        sign: string -> Result<string, string>, credentials: Result<string, string>)
    : (r: Result<UrlOutcome, UrlError>)
    ensures r.Err? <==> cfg.expires < now
    ensures r.Ok? ==> !r.value.NoCallback?
    ensures r.Ok? ==> (r.value.UrlReady? <==> sign(StringToSign(f, cfg, encode)).Ok? && credentials.Ok?)
    ensures r.Ok? && r.value.UrlReady? ==>
      r.value.link == Link(f, cfg, encode, credentials.value, sign(StringToSign(f, cfg, encode)).value)
  {
    if cfg.expires < now then Err(PastExpiry)
    else
      match sign(StringToSign(f, cfg, encode))
      case Err(message) => Ok(UrlSigningFailed(message))
      case Ok(signature) =>
        match credentials
        case Err(message) => Ok(UrlSigningFailed(message))
        case Ok(email) => Ok(UrlReady(Link(f, cfg, encode, email, signature)))
  }

  /** The two definitions differ only where the one as written never
      answers. */
  lemma CorrectionOnlyAddsAnswers(f: File, cfg: UrlConfig, now: int, encode: string -> string,
                                  sign: string -> Result<string, string>, credentials: Result<string, string>)
    ensures var written := GetSignedUrlAsWritten(f, cfg, now, encode, sign, credentials);
      written == GetSignedUrl(f, cfg, now, encode, sign, credentials)
      || (written == Ok(NoCallback) && credentials.Err?
          && GetSignedUrl(f, cfg, now, encode, sign, credentials) == Ok(UrlSigningFailed(credentials.error)))
  {
  }
}

=== FILE: text.dfy ===
/** Character-level helpers: ASCII case mapping (what `toLowerCase` and
    `toUpperCase` do on ASCII letters) and newline-separated lines (what
    `Array.prototype.join('\n')` builds). */
module Text {

  predicate IsLower(c: char) { 'a' <= c <= 'z' }

  predicate IsUpper(c: char) { 'A' <= c <= 'Z' }

  function LowerChar(c: char): (d: char)
    ensures !IsUpper(d)
    ensures !IsUpper(c) ==> d == c
  {
    if IsUpper(c) then (c as int + 32) as char else c
  }

  function UpperChar(c: char): (d: char)
    ensures !IsLower(d)
    ensures !IsLower(c) ==> d == c
  {
    if IsLower(c) then (c as int - 32) as char else c
  }

  function Lower(s: string): (t: string)
    ensures |t| == |s|
    ensures forall i :: 0 <= i < |s| ==> t[i] == LowerChar(s[i])
  {
    seq(|s|, i requires 0 <= i < |s| => LowerChar(s[i]))
  }

  function Upper(s: string): (t: string)
    ensures |t| == |s|
    ensures forall i :: 0 <= i < |s| ==> t[i] == UpperChar(s[i])
  {
    seq(|s|, i requires 0 <= i < |s| => UpperChar(s[i]))
  }

  /** The two strings agree letter by letter once ASCII case is ignored. */
  predicate SameIgnoringCase(s: string, t: string) {
    |s| == |t| && forall i :: 0 <= i < |s| ==> LowerChar(s[i]) == LowerChar(t[i])
  }

  /** Comparing the lower-cased string with an all-lower-case literal is
      exactly a case-insensitive comparison. */
  lemma LowerEqualsIffSameIgnoringCase(s: string, lit: string)
    requires forall i :: 0 <= i < |lit| ==> !IsUpper(lit[i])
    ensures Lower(s) == lit <==> SameIgnoringCase(s, lit)
  {
    if SameIgnoringCase(s, lit) {
      assert forall i :: 0 <= i < |s| ==> Lower(s)[i] == lit[i];
    }
  }

  predicate NoNewline(s: string) {
    forall i :: 0 <= i < |s| ==> s[i] != '\n'
  }

  /** `lines.join('\n')` for a non-empty list. */
  function JoinLines(lines: seq<string>): string
    requires |lines| >= 1
  {
    if |lines| == 1 then lines[0] else lines[0] + "\n" + JoinLines(lines[1..])
  }

  /** `s.split('\n')`: the pieces between newlines, always at least one. */
  function SplitLines(s: string): (lines: seq<string>)
    ensures |lines| >= 1
  {
    if s == [] then [""]
    else if s[0] == '\n' then [""] + SplitLines(s[1..])
    else
      var rest := SplitLines(s[1..]);
      [[s[0]] + rest[0]] + rest[1..]
  }

  lemma {:induction false} SplitNoNewline(s: string)
    requires NoNewline(s)
    ensures SplitLines(s) == [s]
  {
    if s != [] {
      SplitNoNewline(s[1..]);
      assert [s[0]] + s[1..] == s;
    }
  }

  lemma {:induction false} SplitAtFirstNewline(line: string, rest: string)
    requires NoNewline(line)
    ensures SplitLines(line + "\n" + rest) == [line] + SplitLines(rest)
  {
    if line == [] {
      assert line + "\n" + rest == ['\n'] + rest;
      assert (['\n'] + rest)[1..] == rest;
    } else {
      var s := line + "\n" + rest;
      assert s[0] == line[0];
      assert s[1..] == line[1..] + "\n" + rest;
      SplitAtFirstNewline(line[1..], rest);
      assert [line[0]] + line[1..] == line;
    }
  }

  /** Joining newline-free lines and splitting the result again gives back
      the same lines. */
  lemma {:induction false} SplitJoinLines(lines: seq<string>)
    requires |lines| >= 1
    requires forall i :: 0 <= i < |lines| ==> NoNewline(lines[i])
    ensures SplitLines(JoinLines(lines)) == lines
  {
    if |lines| == 1 {
      SplitNoNewline(lines[0]);
    } else {
      SplitJoinLines(lines[1..]);
      SplitAtFirstNewline(lines[0], JoinLines(lines[1..]));
      assert [lines[0]] + lines[1..] == lines;
    }
  }
}

=== FILE: write_stream.dfy ===
/** `File#createWriteStream` and `File#startSimpleUpload_`: how the options
    are normalised, which upload technique is used, the query of a simple
    upload, and the verdict once the upload has completed. */
module WriteStream {
  import opened Js
  import opened Integrity
  import opened FileObject
  import opened ReadStream

  datatype WriteOptions = WriteOptions(
    metadata: Option<Params>,
    contentType: Value,
    gzip: Value,
    validation: Value,
    resumable: Value,
    predefinedAcl: Value,
    isPrivate: Value,
    isPublic: Value,
    userProject: Value)

  /** The options after normalisation: the object metadata to send, whether
      the data is gzipped on the way, and the checks to run. */
  datatype NormalizedWrite = NormalizedWrite(metadata: Params, gzip: bool, checks: Checks)

  /** Normalises the options. `contentType` is copied into the metadata,
      `"auto"` meaning the type the file name suggests (`mimeType`, the mime
      lookup, outside this model); `gzip: "auto"` compresses when
      `compressible` says the resulting content type is compressible;
      gzipped data is sent with `contentEncoding: gzip`; `validation` is read
      as for downloads. */
  function NormalizeWriteOptions(name: string, o: WriteOptions, mimeType: string -> Value, compressible: Value -> bool)
    : (w: NormalizedWrite)
    ensures var given := if o.metadata.Some? then o.metadata.value else [];
      && (Truthy(o.contentType) && o.contentType != Str("auto") ==> Get(w.metadata, "contentType") == o.contentType)
      && (o.contentType == Str("auto") ==> Get(w.metadata, "contentType") == mimeType(name))
      && (!Truthy(o.contentType) ==> Get(w.metadata, "contentType") == Get(given, "contentType"))
      && (w.gzip <==> if o.gzip == Str("auto") then compressible(Get(w.metadata, "contentType")) else Truthy(o.gzip))
      && (w.gzip ==> Get(w.metadata, "contentEncoding") == Str("gzip"))
      && (!w.gzip ==> Get(w.metadata, "contentEncoding") == Get(given, "contentEncoding"))
      && (forall k :: k != "contentType" && k != "contentEncoding" ==> Get(w.metadata, k) == Get(given, k))
    ensures w.checks == ValidationChecks(o.validation)
  {
    var m0 := if o.metadata.Some? then o.metadata.value else [];
    var m1 := WithContentType(m0, o.contentType, mimeType(name));
    var gzip := if o.gzip == Str("auto") then compressible(Get(m1, "contentType")) else Truthy(o.gzip);
    var m2 := if gzip then Put(m1, "contentEncoding", Str("gzip")) else m1;
    PutOther(m1, "contentEncoding", Str("gzip"), "contentType");
    forall k | k != "contentEncoding"
      ensures Get(m2, k) == Get(m1, k)
    {
      PutOther(m1, "contentEncoding", Str("gzip"), k);
    }
    NormalizedWrite(m2, gzip, ValidationChecks(o.validation))
  }

  /** The metadata with the `contentType` option applied: a truthy option
      replaces the metadata's content type, `"auto"` standing for the type
      `guessed` from the file name. */
  function WithContentType(metadata: Params, contentType: Value, guessed: Value): (m: Params)
    ensures Truthy(contentType) && contentType != Str("auto") ==> Get(m, "contentType") == contentType
    ensures contentType == Str("auto") ==> Get(m, "contentType") == guessed
    ensures !Truthy(contentType) ==> m == metadata
    ensures forall k :: k != "contentType" ==> Get(m, k) == Get(metadata, k)
  {
    var value := if contentType == Str("auto") then guessed else contentType;
    forall k | k != "contentType"
      ensures Get(Put(metadata, "contentType", value), k) == Get(metadata, k)
    {
      PutOther(metadata, "contentType", value, k);
    }
    if Truthy(contentType) then Put(metadata, "contentType", value) else metadata
  }

  datatype Technique = SimpleUpload | ResumableUpload

  /** The `ResumableUploadError` raised when a resumable upload is demanded
      but the configuration directory is not writable. */
  datatype UploadError = ConfigDirNotWritable

  /** The technique chosen when the first data arrives: `resumable: false`
      forces a simple upload; otherwise a writable configuration directory
      (`configWritable`, the result of the `fs.access` probe) gives a
      resumable upload, and an unwritable one falls back to a simple upload
      unless a resumable upload was explicitly asked for. */
  function ChooseTechnique(resumable: Value, configWritable: bool): (t: Result<Technique, UploadError>)
    ensures t == Ok(ResumableUpload) <==> resumable != Bool(false) && configWritable
    ensures t.Err? <==> Truthy(resumable) && !configWritable
    ensures t == Ok(SimpleUpload) <==> resumable == Bool(false) || (!configWritable && !Truthy(resumable))
  {
    if resumable == Bool(false) then Ok(SimpleUpload)
    else if !configWritable then
      if Truthy(resumable) then Err(ConfigDirNotWritable) else Ok(SimpleUpload)
    else Ok(ResumableUpload)
  }

  /** The upload endpoint under which objects of a bucket are created. */
  const UploadBaseUrl := "https://www.googleapis.com/upload/storage/v1/b"

  /** The predefined ACL of a simple upload: an explicit `predefinedAcl` wins,
      then `private`, then `public`. */
  function SimpleUploadAcl(o: WriteOptions): (acl: Value)
    ensures Truthy(o.predefinedAcl) ==> acl == o.predefinedAcl
    ensures !Truthy(o.predefinedAcl) && Truthy(o.isPrivate) ==> acl == Str("private")
    ensures !Truthy(o.predefinedAcl) && !Truthy(o.isPrivate) && Truthy(o.isPublic) ==> acl == Str("publicRead")
    ensures !Truthy(o.predefinedAcl) && !Truthy(o.isPrivate) && !Truthy(o.isPublic) ==> acl == Undefined
  {
    if Truthy(o.predefinedAcl) then o.predefinedAcl
    else if Truthy(o.isPrivate) then Str("private")
    else if Truthy(o.isPublic) then Str("publicRead")
    else Undefined
  }

  datatype UploadRequest = UploadRequest(uri: string, query: Params)

  /** The request of a simple upload, with the billing project `File#request`
      adds: the object name, `ifGenerationMatch` for a versioned file, the
      file's KMS key, the billing project (the option's, else the file's) and
      the predefined ACL. */
  function SimpleUploadRequest(f: File, o: WriteOptions): (r: UploadRequest)
    ensures r.uri == UploadBaseUrl + "/" + f.bucket.name + "/o"
    ensures Get(r.query, "name") == Str(f.name)
    ensures Get(r.query, "ifGenerationMatch") == (if f.generation.Some? then Num(f.generation.value) else Undefined)
    ensures Get(r.query, "kmsKeyName") == (if Defined(f.kmsKeyName) then f.kmsKeyName else Undefined)
    ensures Get(r.query, "predefinedAcl") == SimpleUploadAcl(o)
    ensures Get(r.query, "userProject") ==
              (if Truthy(o.userProject) then o.userProject
               else if Truthy(f.userProject) then f.userProject
               else Undefined)
  {
    var q := SimpleUploadQuery(f, o);
    WithUserProjectOther(f.userProject, q, "name");
    WithUserProjectOther(f.userProject, q, "ifGenerationMatch");
    WithUserProjectOther(f.userProject, q, "kmsKeyName");
    WithUserProjectOther(f.userProject, q, "predefinedAcl");
    UploadRequest(UploadBaseUrl + "/" + f.bucket.name + "/o", WithUserProject(f.userProject, SimpleUploadQuery(f, o)))
  }

  /** Where a key of the simple-upload query comes from. */
  lemma QueryKey(f: File, o: WriteOptions, k: string)
    ensures var acl := SimpleUploadAcl(o);
      Find([("name", Str(f.name))]
           + Optional(f.generation.Some?, "ifGenerationMatch", if f.generation.Some? then Num(f.generation.value) else Undefined)
           + Optional(Defined(f.kmsKeyName), "kmsKeyName", f.kmsKeyName)
           + Optional(Truthy(o.userProject), "userProject", o.userProject)
           + Optional(Defined(acl), "predefinedAcl", acl), k)
      == if k == "name" then Some(Str(f.name))
         else if k == "ifGenerationMatch" && f.generation.Some? then Some(Num(f.generation.value))
         else if k == "kmsKeyName" && Defined(f.kmsKeyName) then Some(f.kmsKeyName)
         else if k == "userProject" && Truthy(o.userProject) then Some(o.userProject)
         else if k == "predefinedAcl" && Defined(acl) then Some(acl)
         else None
  {
    var acl := SimpleUploadAcl(o);
    var a := [("name", Str(f.name))];
    var b := Optional(f.generation.Some?, "ifGenerationMatch", if f.generation.Some? then Num(f.generation.value) else Undefined);
    var c := Optional(Defined(f.kmsKeyName), "kmsKeyName", f.kmsKeyName);
    var d := Optional(Truthy(o.userProject), "userProject", o.userProject);
    var e := Optional(Defined(acl), "predefinedAcl", acl);
    FindAppend(a + b + c + d, e, k);
    FindAppend(a + b + c, d, k);
    FindAppend(a + b, c, k);
    FindAppend(a, b, k);
    FindSingleton("name", Str(f.name), k);
    FindOptional(f.generation.Some?, "ifGenerationMatch", if f.generation.Some? then Num(f.generation.value) else Undefined, k);
    FindOptional(Defined(f.kmsKeyName), "kmsKeyName", f.kmsKeyName, k);
    FindOptional(Truthy(o.userProject), "userProject", o.userProject, k);
    FindOptional(Defined(acl), "predefinedAcl", acl, k);
  }

  /** The query `startSimpleUpload_` builds, before `File#request` runs. */
  function SimpleUploadQuery(f: File, o: WriteOptions): (q: Params)
    ensures Get(q, "name") == Str(f.name)
    ensures Get(q, "ifGenerationMatch") == (if f.generation.Some? then Num(f.generation.value) else Undefined)
    ensures Get(q, "kmsKeyName") == (if Defined(f.kmsKeyName) then f.kmsKeyName else Undefined)
    ensures Get(q, "predefinedAcl") == SimpleUploadAcl(o)
    ensures Get(q, "userProject") == (if Truthy(o.userProject) then o.userProject else Undefined)
  {
    var acl := SimpleUploadAcl(o);
    var a := [("name", Str(f.name))];
    var b := Optional(f.generation.Some?, "ifGenerationMatch", if f.generation.Some? then Num(f.generation.value) else Undefined);
    var c := Optional(Defined(f.kmsKeyName), "kmsKeyName", f.kmsKeyName);
    var d := Optional(Truthy(o.userProject), "userProject", o.userProject);
    var e := Optional(Defined(acl), "predefinedAcl", acl);
    QueryKey(f, o, "name");
    QueryKey(f, o, "ifGenerationMatch");
    QueryKey(f, o, "kmsKeyName");
    QueryKey(f, o, "predefinedAcl");
    QueryKey(f, o, "userProject");
    a + b + c + d + e
  }

  /** How a completed upload ends: the stream is uncorked and finishes, or
      the uploaded object is deleted and the stream fails with a code. */
  datatype UploadEnd = Finished | DeletedAndFailed(code: ErrorCode)

  /** The error code after a failed check, once the delete of the uploaded
      object has answered: a failed delete wins, then MD5 requested but not
      supplied, then a plain mismatch. */
  function UploadFailureCode(deleteFailed: bool, c: Checks, h: ServerHashes): (code: ErrorCode)
    ensures code == FileNoUploadDelete <==> deleteFailed
    ensures code == Md5NotAvailable <==> !deleteFailed && c.md5 && !Supplied(h.md5Hash)
    ensures code == FileNoUpload <==> !deleteFailed && !(c.md5 && !Supplied(h.md5Hash))
  {
    if deleteFailed then FileNoUploadDelete
    else if c.md5 && !Supplied(h.md5Hash) then Md5NotAvailable
    else FileNoUpload
  }

  /** The verdict on a completed upload: the object is deleted exactly when
      the checks fail, and the stream finishes exactly when they pass. */
  function UploadVerdict(c: Checks, h: ServerHashes, test: HashTest, deleteFailed: bool): (e: UploadEnd)
    ensures e == Finished <==> !Mismatch(c, h, test)
    ensures e.DeletedAndFailed? ==> e.code == UploadFailureCode(deleteFailed, c, h)
  {
    if Mismatch(c, h, test) then DeletedAndFailed(UploadFailureCode(deleteFailed, c, h)) else Finished
  }

  /** With checks chosen by the `validation` option, an upload that asked
      for MD5 when the server supplies none is always deleted, and reports
      `MD5_NOT_AVAILABLE` unless the delete failed. */
  lemma UploadWithoutServerMd5(validation: Value, h: ServerHashes, test: HashTest, deleteFailed: bool)
    requires ValidationChecks(validation).md5 && !Supplied(h.md5Hash)
    ensures UploadVerdict(ValidationChecks(validation), h, test, deleteFailed)
      == DeletedAndFailed(if deleteFailed then FileNoUploadDelete else Md5NotAvailable)
  {
  }

  /** The download and the upload judge a transfer alike: when the checks
      come from the `validation` option, an upload finishes exactly when a
      full download of the same data with the same metadata would end
      normally, and it reports `MD5_NOT_AVAILABLE` exactly when the download
      would, unless the delete of the uploaded object failed. */
  lemma UploadAgreesWithDownload(validation: Value, h: ServerHashes, test: HashTest, deleteFailed: bool)
    ensures var c := ValidationChecks(validation);
      (UploadVerdict(c, h, test, deleteFailed) == Finished)
        <==> (DownloadVerdict(false, c, Ok(h), test) == Ended)
    ensures var c := ValidationChecks(validation);
      (UploadVerdict(c, h, test, deleteFailed) == DeletedAndFailed(Md5NotAvailable))
        <==> (!deleteFailed && DownloadVerdict(false, c, Ok(h), test) == IntegrityFailed(Md5NotAvailable))
  {
  }
}
